=== FILE: README.md ===
# SunshineCarrers admin core in Dafny

This project models the administrative back end of the SunshineCarrers careers
portal and proves properties of it. The model covers:

- the callable cloud functions that maintain CMS pages with version history;
- the job imports from a spreadsheet and from a JSON URL, and the generic
  import of CSV rows into any named collection, all written through an
  auto-committing batch handler;
- collection wiping and the review of freelance requests;
- the admin guard that every admin callable (all but `setAdminClaim`) runs first;
- the two input validators of the AI features;
- the in-memory job, course and gig list services of the front end.

The model is functional. The store is an immutable value: pages and their
history (`Pages.Cms`), collections of document ids (`Collections.Db`), the
request and gig collections (`Freelance.Store`), and record lists
(`ListStore`). Each callable becomes a function, or a method where the source
loops, returning `Result<T>`. `Failure(msg)` carries the exact message of the
`Error` the source throws. A batch of writes is a list of staged operations
that commits all at once.

JavaScript value semantics are made explicit in `Js`:

- truthiness and `a || b || dflt`;
- `String(x)`, where a date prints as its text, any other object as
  `[object Object]` and an array as its elements joined by commas;
- `trim`, with the ECMAScript white-space and line-terminator set;
- `split` on one character and its inverse `join`;
- `substring(0, n)`.

The modules are:

- `Wrappers`: `Option`, `Result`, `Flatten`.
- `Js`: JavaScript values and string built-ins.
- `Auth`: the admin guard.
- `Batching`: `createBatchHandler`.
- `Pages`: `createEditPage`, `deletePage`, `getPagePreview`.
- `Collections`: `deleteCollectionWithPagination`, `deleteQueryBatch`,
  `adminDeleteCollection`.
- `Imports`: `normalizeJobData`, the `createJobPost` tag parsing,
  `importJobsFromExcel`, `importJobsFromURL`, `bulkImportContent`.
- `Freelance`: `manageFreelanceRequest`.
- `Validators`: the two validators of `geminiService.ts`.
- `ListStore`, with its three instances `Jobs`, `Courses` and `Gigs`.

## Model

| member | source | states |
|---|---|---|
| Auth.AssertAdmin | functions/src/index.ts:49-53 | the guard passes exactly for a signed-in caller whose `role` claim is "admin", returning its uid; otherwise it fails with "Must be an admin" |
| Auth.AssertAdminAsCalled | functions/src/index.ts:23-30 | as every admin callable invokes it, with `request.auth` cast to a context type, the guard fails for every caller; a signed-in caller gets "Must be an admin" |
| Auth.AdminRejectedAsCalled | functions/src/index.ts:129 | an admin caller, whom the guard is meant to let through, is rejected by the guard as called |
| Batching.Commit | functions/src/index.ts:68-74 | commit flushes the open batch if it is non-empty and does nothing otherwise; no staged write is lost or reordered, and committed batches stay non-empty and within 400 |
| Batching.Set | functions/src/index.ts:61-67 | `set` stages the write after all earlier ones; it commits automatically exactly when the open batch reaches 400, and otherwise grows the open batch by one |
| Batching.SetAllShape | functions/src/index.ts:56-78 | n writes into a fresh handler give n / 400 committed batches of exactly 400 and n % 400 open writes, in staging order |
| Batching.FullBatchFlushesOnce | functions/src/index.ts:64-66 | exactly 400 writes cause one automatic commit and leave nothing open; a 401st write stays open |
| Batching.CommitFlushesEverything | functions/src/index.ts:68-74 | with the final `commit`, every staged write is committed exactly once and in order; without it, the last partial batch is never committed |
| Collections.PassSizesShape | functions/src/index.ts:104-122 | the passes over n documents delete n documents in total; there are ceil(n / 400) passes, each of 1..400 documents, and all but the last are full |
| Collections.DeleteCollectionWithPagination | functions/src/index.ts:96-122 | the passes delete exactly the collection's documents, in query order, in pages of the sizes `PassSizes` gives, until a query comes back empty |
| Collections.ClearedDocs | functions/src/index.ts:706-712 | after wiping a list of collections, exactly the listed ones are empty and every other collection is untouched |
| Collections.WipeAll | functions/src/index.ts:706-712 | wiping collections one after another logs one entry per collection, in order, each holding exactly that collection's documents |
| Collections.AdminDeleteCollection | functions/src/index.ts:690-721 | rejects a non-admin, a missing name and a name that is neither allowed nor "all", each with its message; otherwise it empties exactly the named collection, or all eight for "all", leaves the rest alone and reports "Successfully deleted <name> collection(s)" |
| Collections.AllowedDistinct | functions/src/index.ts:697-700 | the allowed list names no collection twice, so "all" wipes each collection once |
| Pages.CreateEditPage | functions/src/index.ts:493-545 | rejects a non-admin, and a missing slug or title with "Slug and Title are required"; a new slug is written at version 1 in one write; an existing page is archived under its version and then overwritten at the next version, in one two-write batch |
| Pages.NextVersion | functions/src/index.ts:514 | the next version is one more than a stored version of at least 1, and 2 after a stored version 0 (which `|| 1` treats as 1); never below 2 |
| Pages.Excerpt | functions/src/index.ts:531 | the excerpt is the first 150 characters of the content followed by "...", even when nothing was cut |
| Pages.ShortContentExcerpt | functions/src/index.ts:531 | content of at most 150 characters is stored whole in the excerpt, with "..." appended |
| Pages.SavedPageFields | functions/src/index.ts:527-538 | the page written keeps slug, author, time and version; its title is the trimmed request title; the excerpt is at most 150 characters of the content followed by "..."; absent content, meta, published and image default to "", {}, false and null, and an empty image becomes null |
| Pages.SavedPageGivenFields | functions/src/index.ts:527-538 | each field the request supplies is written as given: the content, the meta map, the published flag and a non-empty featured image |
| Pages.SaveEffect | functions/src/index.ts:509-539 | a successful save changes exactly the page under its slug and, for an existing page, adds exactly one history entry holding the prior content, time, author and version; nothing else changes |
| Pages.SavePreservesConsistent | functions/src/index.ts:493-545 | a save keeps the store consistent: every page sits under its own slug and its history holds exactly versions 1 .. version-1 |
| Pages.SaveContentStep | functions/src/index.ts:509-539 | one save makes the new content current; for an existing page it adds the prior version to the history and keeps every other archived version |
| Pages.ArchiveExtends | functions/src/index.ts:514-524 | archiving the current version under its number extends a history that recorded earlier saves by that save |
| Pages.SaveGrowsHistory | functions/src/index.ts:509-539 | one more save of a slug whose history records earlier saves extends that record by the new content |
| Pages.FirstSave | functions/src/index.ts:509-539 | the first save of a fresh slug records version 1 and no history |
| Pages.SavesExtend | functions/src/index.ts:509-539 | a run of saves after a recorded run extends the record by the new contents, in order |
| Pages.RepeatedSaves | functions/src/index.ts:493-545 | after N saves of a fresh slug the page is at version N with the last content, and its history holds exactly versions 1 .. N-1, version k holding the k-th content |
| Pages.RepeatedSavesRecorded | functions/src/index.ts:493-545 | the same as `RepeatedSaves`, stated through the `Recorded` predicate |
| Pages.DeletePageOp | functions/src/index.ts:550-573 | rejects a non-admin, a missing slug and an absent page, each with its message; otherwise one batch removes the fetched history entries (at most 50) and then the page; the fetched entries are staged here as a single write, where the source stages one delete per entry |
| Pages.DeleteEffect | functions/src/index.ts:562-567 | a delete removes the page and exactly the fetched history versions; every other page, every other slug's history and the page's unfetched history entries keep their values |
| Pages.DeleteSmallHistory | functions/src/index.ts:562-567 | a page with at most 50 archived versions is removed completely, and the store stays consistent |
| Pages.DeleteLargeHistory | functions/src/index.ts:562-567 | a page with more than 50 archived versions loses its document and exactly 50 of them; the rest are left orphaned |
| Pages.NoHistoryWithoutPage | functions/src/index.ts:515-524 | in a consistent store a slug without a page has no history |
| Pages.GetPagePreview | functions/src/index.ts:636-648 | rejects a non-admin and empty content; otherwise returns the full length and the content, cut to 500 characters with "..." appended only when something was cut |
| Imports.CleanTags | functions/src/index.ts:88 | tags are no more numerous than the pieces, and each is non-empty and trimmed |
| Imports.CleanTagsMembers | functions/src/index.ts:88 | a tag is present exactly when it is the non-empty trim of some piece |
| Imports.CleanTagsOfClean | functions/src/index.ts:88 | cleaning already clean tags changes nothing |
| Imports.RowTags | functions/src/index.ts:87-89 | row tags are non-empty and trimmed, and a falsy or absent `Tags` gives none |
| Imports.RowTagsOfJoined | functions/src/index.ts:87-89 | a comma-joined list of clean tags in `Tags` reads back as exactly that list |
| Imports.RowTagsOfArray | functions/src/index.ts:87-89 | an array of clean tags in `Tags` survives `String` and `split` unchanged |
| Imports.PostTags | functions/src/index.ts:140-144 | post tags are non-empty and trimmed, and a value that is neither an array nor a string gives none |
| Imports.PostTagsIdempotent | functions/src/index.ts:140-144 | parsing the stored tags of a post again gives the same tags |
| Imports.TagParsersAgreeOnStrings | functions/src/index.ts:87-89 | `createJobPost` and `normalizeJobData` parse a string of tags identically |
| Imports.NormalizeJob | functions/src/index.ts:80-94 | each field comes from its capitalised header, else its lower-case one, else the default: "" for title, company, location, salary and description, "Remote" for the type; tags come from the row tags; the job is always published |
| Imports.NormalizeJobQuirks | functions/src/index.ts:84-91 | a lower-case `tags` column is ignored; a missing type becomes "Remote"; a row cannot unpublish itself |
| Imports.CreateJobPost | functions/src/index.ts:128-163 | rejects a non-admin, and a missing title or company with "title and company are required"; otherwise the job's title, company, location and description are the request's trimmed, its salary is as given, its type defaults to "Remote", its tags are the parsed tags, and it is published |
| Imports.RowRecord | functions/src/index.ts:190-196 | every key of a row record is the text of a non-empty header whose column holds a non-empty cell, and maps to that cell |
| Imports.RowRecordReads | functions/src/index.ts:190-196 | under distinct headers every non-empty cell is read under its own header |
| Imports.RowRecordLastWins | functions/src/index.ts:190-196 | a non-empty cell is read under its header's text unless a later non-empty cell writes the same text: for a repeated header the later column wins |
| Imports.WrittenAfterIff | functions/src/index.ts:190-196 | `WrittenAfter` holds exactly when some later non-empty cell under a non-empty header has the given text |
| Imports.DataRows | functions/src/index.ts:186-197 | the records are the rows after the header row, one per row, in order |
| Imports.AcceptedPlusRejected | functions/src/index.ts:203-218 | every item is either imported or counted as failed, never both |
| Imports.ImportLoop | functions/src/index.ts:202-223 | imported plus failed equals the item count; the committed batches hold exactly the converted acceptable items, in order, in batches of 1..400, which is what the batch handler produces |
| Imports.ImportJobsFromExcel | functions/src/index.ts:166-245 | rejects a non-admin, missing file data, file data that is neither a string nor an array, and a sheet with no data rows, each with its message; otherwise it imports the titled rows, counts the rest as failed, warns exactly when some failed, with the text "N jobs failed to import", and reports "Successfully imported N jobs" |
| Imports.UntitledRowSkipped | functions/src/index.ts:209-212 | a row without a title is counted as failed and stages nothing, and it does not stop the rows after it |
| Imports.UrlJob | functions/src/index.ts:276-281 | the stored document keeps every field of the item, sets `published` to true and both timestamps to the server time, and has no other keys |
| Imports.ImportJobsFromURL | functions/src/index.ts:250-311 | rejects a non-admin, a missing URL, a failed fetch (with its status text) and a non-array body; otherwise it imports the objects with a title and a company, counts the rest as failed, warns "N jobs failed to import" exactly when some failed, and reports "... jobs from URL" |
| Imports.UrlNeedsCompany | functions/src/index.ts:271-274 | an item with only a title is rejected by the URL import, though the spreadsheet import would accept it |
| Imports.Stamped | functions/src/index.ts:614-618 | a bulk document keeps every field of the row, sets `createdAt` and `updatedAt` to the server time, and has no other keys |
| Imports.ImportRows | functions/src/index.ts:610-626 | every row becomes one stamped document, staged in order, and the count and message report the number of rows |
| Imports.BulkImportContent | functions/src/index.ts:579-631 | rejects a non-admin, a missing collection name or URL, and a failed fetch; otherwise every data row becomes one stamped document, in order, and the count and message report the row count |
| Imports.AcceptAll | functions/src/index.ts:612-620 | with nothing rejected, the staged documents are the converted rows, one for one |
| Freelance.ApprovedGig | functions/src/index.ts:391-400 | the gig copies the request's title, freelancer, price, category and description; it is approved; its rating is the request's rating or 0; its creation time is the server time; it has no keys besides these |
| Freelance.ManageFreelanceRequest | functions/src/index.ts:369-416 | rejects a non-admin, missing fields, an unknown action and an unknown request, each with its message; approving deletes the request and creates the gig; rejecting sets that request's status to "rejected" and its `updatedAt` to the server time, keeps its other fields, and keeps every other document |
| Freelance.ApproveMovesOne | functions/src/index.ts:389-402 | approving with a fresh gig id removes one request and adds one gig |
| Validators.ValidateStudyAbroad | services/geminiService.ts:81-97 | one message per blank field, so zero to three messages, in the order GPA, country, degree |
| Validators.StudyAbroadErrors | services/geminiService.ts:81-97 | each message appears exactly when its field is absent or only white space; the form is accepted exactly when all three fields have content |
| Validators.BlankIff | services/geminiService.ts:84 | a field is blank exactly when it is absent or only white space |
| Validators.StudyAbroadIgnoresOtherFields | services/geminiService.ts:81-97 | fields other than gpa, country and degree never change the result |
| Validators.StudyAbroadTrimmedField | services/geminiService.ts:81-97 | trimming a field before validation changes nothing |
| Validators.ValidateResumeAnalysis | services/geminiService.ts:99-110 | one message per text that is too short once trimmed, the resume's first |
| Validators.ResumeAnalysisByShortness | services/geminiService.ts:99-110 | the result depends on each text only through whether its trimmed length falls under 50 or 20 characters |
| Validators.ResumeAnalysisErrors | services/geminiService.ts:99-110 | each message appears exactly when its text is too short; the input is accepted exactly when neither is |
| Validators.ResumeAnalysisOfTrimmed | services/geminiService.ts:102-108 | validating the trimmed texts gives the same result as validating the texts |
| ListStore.FindIndex | services/jobService.ts:57 | the first record with the id, or none exactly when no record has it |
| ListStore.NewRecord | services/jobService.ts:46-50 | a new record has the fresh id unless the input overrides it; input fields are kept and forced fields win |
| ListStore.Create | services/jobService.ts:44-53 | create appends exactly the new record, keeps the earlier records, and returns the record |
| ListStore.Update | services/jobService.ts:55-63 | update fails with the not-found message exactly when no record has the id; otherwise it merges the fields into the first such record, whose keys become the old keys plus the new, the new values winning, and leaves every other record alone |
| ListStore.Delete | services/jobService.ts:65-72 | delete fails exactly when no record has the id; otherwise it removes only the first such record, keeping the order of the rest |
| ListStore.DeleteKeepsOthers | services/jobService.ts:65-72 | delete takes out exactly one record, the first with the id, and keeps every other record |
| ListStore.CreateThenDelete | services/jobService.ts:44-72 | creating a record with a new id and deleting that id gives the list back |
| ListStore.FindIndexAppend | services/jobService.ts:51 | a record appended with an id nobody has is found at the end |
| ListStore.UpdateKeepsIds | services/jobService.ts:55-63 | an update that sets no id leaves every lookup by id unchanged |
| ListStore.FindIndexSameIds | services/jobService.ts:57 | lists carrying the same ids at the same places answer every lookup alike |
| ListStore.UpdateIdempotent | services/jobService.ts:55-63 | updating twice with the same fields is the same as updating once |
| Jobs.CreateJob | services/jobService.ts:44-53 | a created job is appended and always published |
| Jobs.UpdateJob | services/jobService.ts:55-63 | update fails with "Job not found" exactly when no job has the id |
| Jobs.DeleteJob | services/jobService.ts:65-72 | delete fails with "Job not found" exactly when no job has the id; otherwise the list shrinks by one |
| Courses.CreateCourse | services/learningService.ts:40-50 | a created course is appended, published and rated 0 |
| Courses.UpdateCourse | services/learningService.ts:52-60 | update fails with "Course not found" exactly when no course has the id |
| Courses.DeleteCourse | services/learningService.ts:62-69 | delete fails with "Course not found" exactly when no course has the id; otherwise the list shrinks by one |
| Gigs.CreateGig | services/freelanceServices.ts:40-50 | a created gig is appended, published and rated 0 |
| Gigs.UpdateGig | services/freelanceServices.ts:52-60 | update fails with "Gig not found" exactly when no gig has the id |
| Gigs.DeleteGig | services/freelanceServices.ts:62-69 | delete fails with "Gig not found" exactly when no gig has the id; otherwise the list shrinks by one |
| Js.FirstTruthy | functions/src/index.ts:81-86 | `a || b || dflt` gives the first truthy value, or the default |
| Js.Trim | services/geminiService.ts:84 | the result of `trim` is no longer than its input and starts and ends with a non-space |
| Js.TrimInfix | services/geminiService.ts:84 | the trim is the infix of the string left by removing only white space at both ends |
| Js.TrimEmptyIffAllSpace | services/geminiService.ts:84 | the trim is empty exactly when the string is all white space |
| Js.TrimIdempotent | services/geminiService.ts:84 | trimming twice is trimming once |
| Js.TrimPadded | services/geminiService.ts:102 | white space around a trimmed string is removed exactly |
| Js.Split | functions/src/index.ts:88 | the split yields at least one piece, and no piece contains the separator |
| Js.JoinSplit | functions/src/index.ts:88 | joining the pieces of a split gives the string back |
| Js.SplitJoin | functions/src/index.ts:88 | splitting a join of separator-free pieces gives the pieces back |
| Js.ParseNatToString | functions/src/index.ts:232 | the decimal text of a count, as the messages print it, reads back as the count |
| Js.Prefix | functions/src/index.ts:531 | `substring(0, n)` has length min(n, length) and is a prefix of the string |

## Left out

- I/O is left out: store reads and writes, `fetch`, the Excel and CSV parsers, base64 decoding and the logger. The worksheet a file parses to, the fetch response and the parsed JSON body are parameters, and so is the id the store generates for a new document.
- Server timestamps are the constant `ServerTime`, or a `Timestamp` parameter in `Pages`. Date-based ids in the list services are a `freshId` parameter. The half-second delays are not modelled.
- Store failures inside an import are not modelled. The source catches an error while staging one item and counts it as failed. Since staging itself cannot fail in the model, and a batch commits all-or-nothing, that path never arises.
- Strings are sequences of code points, not UTF-16 code units. Lengths of strings outside the Basic Multilingual Plane therefore differ from JavaScript's `length`.
- Numbers are integers; fractional ratings and prices are not modelled.
- Imports.JobDoc does not hold `createdAt` and `updatedAt`. Both are always the server timestamp.
- Imports.CreateJobPost: a non-string `title` or `company` is not modelled. Such a value would throw on `trim`; the model takes the request's text fields as strings.
- Validators.ValidateStudyAbroad: a non-string field, on which `trim` would throw, is not modelled; the form maps names to strings.
- Freelance.ApprovedGig: a field absent from the request stays absent from the gig. The store would reject the `undefined` value the source writes there.
- Freelance.ManageFreelanceRequest: the "Request data not found" error is left out. An existing document always has data, so the branch cannot be reached.
- Pages.DeletePageOp: which 50 history entries the query returns is store order. It is the `fetched` parameter, constrained to be that many of the page's versions. The fetched entries are removed by one staged `DeleteHistory` write rather than one delete each; since a batch commits all at once, the store after the commit is the same.
- Collections.DeleteCollectionWithPagination: the recursion through `process.nextTick` and the promise plumbing are modelled as a loop. A failing batch commit is left out. On the first pass it rejects the promise; on a later pass it runs inside the `nextTick` callback, which has no `reject` and no catch, so the rejection goes unhandled and the promise `adminDeleteCollection` awaits never settles.
- Imports.ImportJobsFromExcel: the sheet is taken as the parser reports it. Wholly empty rows and cells, which ExcelJS skips, are not represented.
- The admin guard: every admin callable in the model runs the corrected guard Auth.AssertAdmin, so that the rest of its behaviour can be stated; as written, each fails for every caller (see Findings).
- Pages.NextVersion: the stored `version` is taken to be present and a natural number. When it is absent, the archived history entry would carry `version: undefined`; the store is not set to ignore undefined properties, so the batch `set` throws, the error is rethrown, and nothing is written. That failure is not modelled.
- Each callable is modelled as one atomic step on the store. `createEditPage` reads the page before it commits its batch, so two concurrent saves can both archive the same version and write the same next version; interleavings are not modelled.
- Library failures are not modelled: `fetch` rejecting, `response.json()` throwing, and a workbook that fails to load or has no worksheet. Each would surface as the thrown error.
- The callables `createLearningContent`, `createConsultantProfile`, `approveAIAccess`, `getSystemStatus`, `adminDeleteStorage` and `setAdminClaim` are not part of this model. The same goes for the list services' `get*` readers, which return the list unchanged.

Notable behaviours of the code that the model keeps:

- `createEditPage` and `createJobPost` accept a title of only white space, which trims to "".
- `bulkImportContent` does not check the collection name against any list.
- The list services let the input's `id` override the generated one.

## Findings

| source | as written | input that shows it | evidently intended | confidence | as-written member | corrected member |
|---|---|---|---|---|---|---|
| functions/src/index.ts:49-53 | every admin callable (all but `setAdminClaim`, which runs no guard) passes `request.auth` (fields `uid`, `token`, `rawToken`) to a guard that reads `context.auth.token.role`; `context.auth` is always undefined, so the guard throws for every caller | a signed-in caller whose token has `role: "admin"` calls `createEditPage` and gets "Must be an admin" | pass admin callers: read `request.auth.token.role` | high, not executed | Auth.AssertAdminAsCalled, Auth.AdminRejectedAsCalled | Auth.AssertAdmin |

=== FILE: auth.dfy ===
/** The admin guard that every admin callable runs before anything else
    (functions/src/index.ts `assertAdmin`). */
module Auth {
  import opened Wrappers

  /** The authenticated caller of a callable request: its user id and the
      custom `role` claim of its ID token, if any. */
  datatype AuthData = AuthData(uid: string, role: Option<string>)

  const NotAdmin: string := "Must be an admin"

  /** The principal is an authenticated user whose `role` claim is exactly `"admin"`. */
  predicate IsAdmin(auth: Option<AuthData>) {
    auth.Some? && auth.value.role == Some("admin")
  }

  /** The guard as evidently intended: pass exactly for an admin principal,
      otherwise fail with "Must be an admin". The rest of the model uses this. */
  function AssertAdmin(auth: Option<AuthData>): (r: Result<string>)
    ensures r.Success? <==> IsAdmin(auth)
    ensures r.Success? ==> r.value == auth.value.uid
    ensures r.Failure? ==> r.error == NotAdmin
  {
    match auth
    case Some(a) => if a.role == Some("admin") then Success(a.uid) else Failure(NotAdmin)
    case None => Failure(NotAdmin)
  }

  /** The guard as it is called: every admin callable passes `request.auth` itself,
      cast to a context type, and the guard then reads a nested `auth`
      member of it. The request's auth data carries only `uid`, `token` and
      `rawToken`, so that member is always undefined and the guard always
      throws: "Must be an admin" for a signed-in caller, and a TypeError on
      reading a member of `undefined` for an anonymous one. */
  function AssertAdminAsCalled(auth: Option<AuthData>): (r: Result<string>)
    ensures r.Failure?
    ensures auth.Some? ==> r.error == NotAdmin
  {
    match auth
    case Some(_) => Failure(NotAdmin)
    case None => Failure("Cannot read properties of undefined (reading 'auth')")
  }

  /** The discrepancy: an admin principal, whom the guard is meant to let
      through, is rejected by the guard as called. */
  lemma AdminRejectedAsCalled(uid: string)
    ensures AssertAdmin(Some(AuthData(uid, Some("admin")))).Success?
    ensures AssertAdminAsCalled(Some(AuthData(uid, Some("admin")))).Failure?
  {
  }
}

=== FILE: batching.dfy ===
/** The batch handler of the admin functions (functions/src/index.ts
    `createBatchHandler`): writes are staged into a store batch, the batch is
    committed automatically when it holds `MaxBatchSize` writes, and the
    caller must `commit` once at the end to flush the last partial batch.

    The handler is a value: `pending` is the open batch and `flushed` the
    batches committed so far, oldest first. A commit is all-or-nothing. */
module Batching {
  import opened Wrappers

  const MaxBatchSize: nat := 400

  datatype Handler<T> = Handler(pending: seq<T>, flushed: seq<seq<T>>)

  function NewHandler<T>(): Handler<T> {
    Handler([], [])
  }

  /** `getOperationCount()`. */
  function OperationCount<T>(h: Handler<T>): nat {
    |h.pending|
  }

  /** Every write handed to the handler so far, committed or not, in staging order. */
  function Staged<T>(h: Handler<T>): seq<T> {
    Flatten(h.flushed) + h.pending
  }

  /** The state every handler built by `NewHandler`, `Set` and `Commit` is in:
      the open batch is below the limit and no committed batch is empty or
      over the limit. */
  predicate Valid<T>(h: Handler<T>) {
    && |h.pending| < MaxBatchSize
    && forall k :: 0 <= k < |h.flushed| ==> 0 < |h.flushed[k]| <= MaxBatchSize
  }

  /** `commit()`: flush the open batch, if it holds anything. */
  function Commit<T>(h: Handler<T>): (h': Handler<T>)
    ensures Staged(h') == Staged(h)
    ensures h'.pending == []
    ensures |h'.flushed| >= |h.flushed| && h'.flushed[..|h.flushed|] == h.flushed
    ensures |h.pending| == 0 <==> h' == h
    ensures |h.pending| > 0 <==> |h'.flushed| == |h.flushed| + 1
    ensures Valid(h) ==> Valid(h')
  {
    if |h.pending| > 0 then
      var h' := Handler([], h.flushed + [h.pending]);
      assert Staged(h') == Staged(h) by {
        FlattenAppend(h.flushed, [h.pending]);
        assert Flatten([h.pending]) == Flatten([]) + h.pending;
      }
      h'
    else h
  }

  /** `set(ref, data)`: stage one write, and commit when the open batch reaches
      the limit. */
  function Set<T>(h: Handler<T>, x: T): (h': Handler<T>)
    ensures Staged(h') == Staged(h) + [x]
    ensures Valid(h) ==> Valid(h')
    ensures Valid(h) && |h.pending| + 1 == MaxBatchSize ==> h'.pending == [] && |h'.flushed| == |h.flushed| + 1
    ensures Valid(h) && |h.pending| + 1 < MaxBatchSize ==> h'.flushed == h.flushed && |h'.pending| == |h.pending| + 1
  {
    var open := Handler(h.pending + [x], h.flushed);
    if |open.pending| >= MaxBatchSize then Commit(open) else open
  }

  /** A caller's loop of `set` calls, one per element of `xs`, in order. */
  function SetAll<T>(h: Handler<T>, xs: seq<T>): Handler<T>
  {
    if xs == [] then h else Set(SetAll(h, xs[..|xs| - 1]), xs[|xs| - 1])
  }

  /** Staging `n` writes into a fresh handler commits `n / MaxBatchSize` full
      batches and leaves `n % MaxBatchSize` writes open, keeping their order. */
  lemma {:induction false} SetAllShape<T>(xs: seq<T>)
    ensures var h := SetAll(NewHandler(), xs);
      && Valid(h)
      && Staged(h) == xs
      && |h.flushed| == |xs| / MaxBatchSize
      && |h.pending| == |xs| % MaxBatchSize
      && (forall k :: 0 <= k < |h.flushed| ==> |h.flushed[k]| == MaxBatchSize)
    decreases |xs|
  {
    if xs != [] {
      var prev := SetAll(NewHandler(), xs[..|xs| - 1]);
      SetAllShape(xs[..|xs| - 1]);
      assert xs[..|xs| - 1] + [xs[|xs| - 1]] == xs;
      var h := Set(prev, xs[|xs| - 1]);
      if |prev.pending| + 1 == MaxBatchSize {
        assert h == Handler([], prev.flushed + [prev.pending + [xs[|xs| - 1]]]);
      } else {
        assert h == Handler(prev.pending + [xs[|xs| - 1]], prev.flushed);
      }
    }
  }

  /** Exactly `MaxBatchSize` writes trigger exactly one automatic commit and
      leave nothing open; one more write stays open until `commit`. */
  lemma FullBatchFlushesOnce<T>(xs: seq<T>, y: T)
    requires |xs| == MaxBatchSize
    ensures |SetAll(NewHandler(), xs).flushed| == 1
    ensures SetAll(NewHandler(), xs).pending == []
    ensures |SetAll(NewHandler(), xs + [y]).flushed| == 1
    ensures SetAll(NewHandler(), xs + [y]).pending == [y]
  {
    SetAllShape(xs);
    SetAllShape(xs + [y]);
    assert (xs + [y])[..|xs + [y]| - 1] == xs;
  }

  /** With the final `commit`, every staged write is committed exactly once and
      in staging order; without it, the last partial batch is never committed. */
  lemma {:induction false} CommitFlushesEverything<T>(xs: seq<T>)
    ensures Flatten(Commit(SetAll(NewHandler(), xs)).flushed) == xs
    ensures Flatten(SetAll(NewHandler(), xs).flushed) == xs[..|xs| - |xs| % MaxBatchSize]
  {
    SetAllShape(xs);
    var h := SetAll(NewHandler(), xs);
    assert xs == Flatten(h.flushed) + h.pending;
    assert Flatten(h.flushed) == xs[..|xs| - |h.pending|];
  }
}

=== FILE: collections.dfy ===
/** Whole-collection deletion (functions/src/index.ts
    `deleteCollectionWithPagination`, `deleteQueryBatch`,
    `adminDeleteCollection`). A collection is the sequence of its document
    ids in the order the store's queries return them. */
module Collections {
  import opened Wrappers
  import Auth

  /** Documents one paginated pass queries and deletes. */
  const PageSize: nat := 400

  /** The collections the admin may wipe, in the order "all" wipes them. */
  const Allowed: seq<string> :=
    ["pages", "jobs", "universities", "countries", "ai_tools", "courses", "freelance_gigs", "consultants"]

  const CollectionNameRequired: string := "collectionName is required"
  const InvalidCollectionName: string :=
    "Invalid collection name. Allowed: pages, jobs, universities, countries, ai_tools, courses, freelance_gigs, consultants or 'all'"

  type DocId = string

  /** The store: collection name to its documents. An absent name is an empty collection. */
  type Db = map<string, seq<DocId>>

  function Docs(db: Db, name: string): seq<DocId> {
    if name in db then db[name] else []
  }

  /** The sizes of the passes that empty a collection of `n` documents. */
  function PassSizes(n: nat): seq<nat>
    decreases n
  {
    if n == 0 then [] else [Min(n, PageSize)] + PassSizes(n - Min(n, PageSize))
  }

  function Sum(xs: seq<nat>): nat {
    if xs == [] then 0 else xs[0] + Sum(xs[1..])
  }

  /** The passes delete every document, each pass at most `PageSize` and none
      empty, and every pass but the last a full page. */
  lemma {:induction false} PassSizesShape(n: nat)
    ensures Sum(PassSizes(n)) == n
    ensures |PassSizes(n)| == (n + PageSize - 1) / PageSize
    ensures forall k :: 0 <= k < |PassSizes(n)| ==> 0 < PassSizes(n)[k] <= PageSize
    ensures forall k :: 0 <= k < |PassSizes(n)| - 1 ==> PassSizes(n)[k] == PageSize
    decreases n
  {
    if n > 0 {
      PassSizesShape(n - Min(n, PageSize));
    }
  }

  /** `deleteCollectionWithPagination`: query the first page of at most 400
      documents, delete them in one batch, and repeat until a query comes back
      empty. Returns the documents each pass deleted. */
  method DeleteCollectionWithPagination(docs: seq<DocId>) returns (passes: seq<seq<DocId>>)
    ensures Flatten(passes) == docs
    ensures |passes| == |PassSizes(|docs|)|
    ensures forall k :: 0 <= k < |passes| ==> |passes[k]| == PassSizes(|docs|)[k]
  {
    var remaining := docs;
    passes := [];
    while true
      invariant Flatten(passes) + remaining == docs
      invariant |passes| + |PassSizes(|remaining|)| == |PassSizes(|docs|)|
      invariant forall k :: 0 <= k < |passes| ==> |passes[k]| == PassSizes(|docs|)[k]
      invariant PassSizes(|docs|)[|passes|..] == PassSizes(|remaining|)
      decreases |remaining|
    {
      var snapshot := remaining[..Min(|remaining|, PageSize)];
      if |snapshot| == 0 {
        break;
      }
      FlattenAppend(passes, [snapshot]);
      assert Flatten([snapshot]) == Flatten([]) + snapshot;
      passes := passes + [snapshot];
      remaining := remaining[|snapshot|..];
    }
  }

  /** No collection is wiped twice by "all". */
  lemma AllowedDistinct()
    ensures Distinct(Allowed)
  {
    assert |Allowed[0]| == 5 && |Allowed[1]| == 4 && |Allowed[2]| == 12 && |Allowed[3]| == 9;
    assert |Allowed[4]| == 8 && |Allowed[5]| == 7 && |Allowed[6]| == 14 && |Allowed[7]| == 11;
  }

  /** The collections a request names: one, or every allowed one for "all". */
  function Targets(name: string): seq<string> {
    if name == "all" then Allowed else [name]
  }

  datatype Wiped = Wiped(message: string, db: Db, log: seq<(string, seq<seq<DocId>>)>)

  /** The collections hold no name twice. */
  predicate Distinct(names: seq<string>) {
    forall i, j :: 0 <= i < j < |names| ==> names[i] != names[j]
  }

  /** The store after emptying the named collections one by one. */
  function Cleared(db: Db, names: seq<string>): Db
    decreases |names|
  {
    if names == [] then db else Cleared(db, names[..|names| - 1])[names[|names| - 1] := []]
  }

  /** Exactly the named collections are empty afterwards; the rest are untouched. */
  lemma {:induction false} ClearedDocs(db: Db, names: seq<string>, c: string)
    ensures Docs(Cleared(db, names), c) == if c in names then [] else Docs(db, c)
    decreases |names|
  {
    if names != [] {
      var init := names[..|names| - 1];
      ClearedDocs(db, init, c);
      assert names == init + [names[|names| - 1]];
    }
  }

  /** Empty each named collection in turn with `DeleteCollectionWithPagination`. */
  method WipeAll(targets: seq<string>, db: Db) returns (w: Wiped)
    requires Distinct(targets)
    ensures |w.log| == |targets|
    ensures forall k :: 0 <= k < |w.log| ==> w.log[k].0 == targets[k] && Flatten(w.log[k].1) == Docs(db, targets[k])
    ensures w.db == Cleared(db, targets)
  {
    var current := db;
    var log: seq<(string, seq<seq<DocId>>)> := [];
    var i := 0;
    while i < |targets|
      invariant 0 <= i <= |targets|
      invariant |log| == i
      invariant forall k :: 0 <= k < i ==> log[k].0 == targets[k] && Flatten(log[k].1) == Docs(db, targets[k])
      invariant current == Cleared(db, targets[..i])
    {
      ClearedDocs(db, targets[..i], targets[i]);
      assert targets[i] !in targets[..i];
      var passes := DeleteCollectionWithPagination(Docs(current, targets[i]));
      assert targets[..i + 1][..i] == targets[..i];
      log := log + [(targets[i], passes)];
      current := current[targets[i] := []];
      i := i + 1;
    }
    assert targets[..i] == targets;
    return Wiped("", current, log);
  }

  /** `adminDeleteCollection`: after the admin guard, accept only an allowed
      collection name or "all", then empty the named collections one after
      another. The log records each collection's passes, in order. */
  method AdminDeleteCollection(auth: Option<Auth.AuthData>, name: string, db: Db) returns (r: Result<Wiped>)
    ensures !Auth.IsAdmin(auth) ==> r == Failure(Auth.NotAdmin)
    ensures Auth.IsAdmin(auth) && name == "" ==> r == Failure(CollectionNameRequired)
    ensures Auth.IsAdmin(auth) && name != "" && name !in Allowed && name != "all" ==> r == Failure(InvalidCollectionName)
    ensures r.Success? <==> Auth.IsAdmin(auth) && (name in Allowed || name == "all")
    ensures r.Success? ==>
      && r.value.message == "Successfully deleted " + name + " collection(s)"
      && |r.value.log| == |Targets(name)|
      && (forall k :: 0 <= k < |r.value.log| ==>
            r.value.log[k].0 == Targets(name)[k] && Flatten(r.value.log[k].1) == Docs(db, Targets(name)[k]))
      && (forall c :: c in Targets(name) ==> Docs(r.value.db, c) == [])
      && (forall c :: c !in Targets(name) ==> Docs(r.value.db, c) == Docs(db, c))
  {
    var guard := Auth.AssertAdmin(auth);
    if guard.Failure? {
      return Failure(guard.error);
    }
    if name == "" {
      return Failure(CollectionNameRequired);
    }
    if name !in Allowed && name != "all" {
      return Failure(InvalidCollectionName);
    }
    AllowedDistinct();
    var w := WipeAll(Targets(name), db);
    forall c {
      ClearedDocs(db, Targets(name), c);
    }
    return Success(w.(message := "Successfully deleted " + name + " collection(s)"));
  }
}

=== FILE: freelance.dfy ===
/** Admin review of freelance requests (functions/src/index.ts
    `manageFreelanceRequest`): an admin approves a pending request, which
    turns it into a published gig and removes the request in one
    transaction, or rejects it, which marks it rejected. */
module Freelance {
  import opened Wrappers
  import opened Js
  import Auth

  /** The two collections the operation touches, document id to fields. */
  datatype Store = Store(requests: map<string, Record>, gigs: map<string, Record>)

  /** What the operation answers, and the store after it. */
  datatype Managed = Managed(message: string, store: Store)

  const FieldsRequired: string := "action and requestId are required"
  const BadAction: string := "action must be 'approve' or 'reject'"
  const RequestNotFound: string := "Request not found"
  const Approved: string := "Request approved and gig created"
  const Rejected: string := "Request rejected"

  /** The request fields an approved gig copies. */
  const CopiedFields: set<string> := {"title", "freelancer", "price", "category", "description"}

  /** The gig an approved request becomes: the copied fields the request
      has, its rating or 0, the approval flag and the creation time, and
      nothing else. */
  function ApprovedGig(request: Record): (gig: Record)
    ensures forall k :: k in CopiedFields && k in request ==> k in gig && gig[k] == request[k]
    ensures "approved" in gig && gig["approved"] == Bool(true)
    ensures "rating" in gig && gig["rating"] == (if HasTruthy(request, "rating") then request["rating"] else Num(0))
    ensures "createdAt" in gig && gig["createdAt"] == ServerTime
    ensures gig.Keys == (request.Keys * CopiedFields) + {"rating", "approved", "createdAt"}
  {
    (map k | k in request && k in CopiedFields :: request[k])
    + map[
      "rating" := if HasTruthy(request, "rating") then request["rating"] else Num(0),
      "approved" := Bool(true),
      "createdAt" := ServerTime]
  }

  /** `manageFreelanceRequest`; `gigId` is the id the store generates for the new gig. */
  function ManageFreelanceRequest(auth: Option<Auth.AuthData>, action: string, requestId: string, store: Store, gigId: string)
    : (r: Result<Managed>)
    ensures !Auth.IsAdmin(auth) ==> r == Failure(Auth.NotAdmin)
    ensures Auth.IsAdmin(auth) && (action == "" || requestId == "") ==> r == Failure(FieldsRequired)
    ensures Auth.IsAdmin(auth) && action != "" && requestId != "" && action != "approve" && action != "reject" ==>
      r == Failure(BadAction)
    ensures Auth.IsAdmin(auth) && requestId != "" && (action == "approve" || action == "reject") && requestId !in store.requests ==>
      r == Failure(RequestNotFound)
    ensures r.Success? <==>
      Auth.IsAdmin(auth) && requestId != "" && (action == "approve" || action == "reject") && requestId in store.requests
    ensures r.Success? && action == "approve" ==>
      && r.value.message == Approved
      && r.value.store.requests == store.requests - {requestId}
      && r.value.store.gigs == store.gigs[gigId := ApprovedGig(store.requests[requestId])]
    ensures r.Success? && action == "reject" ==>
      && r.value.message == Rejected
      && r.value.store.gigs == store.gigs
      && r.value.store.requests.Keys == store.requests.Keys
      && "status" in r.value.store.requests[requestId]
      && r.value.store.requests[requestId]["status"] == Str("rejected")
      && "updatedAt" in r.value.store.requests[requestId]
      && r.value.store.requests[requestId]["updatedAt"] == ServerTime
      && r.value.store.requests[requestId].Keys == store.requests[requestId].Keys + {"status", "updatedAt"}
      && (forall k :: k in store.requests[requestId] && k != "status" && k != "updatedAt" ==>
            r.value.store.requests[requestId][k] == store.requests[requestId][k])
      && (forall id :: id in store.requests && id != requestId ==> r.value.store.requests[id] == store.requests[id])
  {
    var guard := Auth.AssertAdmin(auth);
    if guard.Failure? then Failure(guard.error)
    else if action == "" || requestId == "" then Failure(FieldsRequired)
    else if action != "approve" && action != "reject" then Failure(BadAction)
    else if requestId !in store.requests then Failure(RequestNotFound)
    else
      var request := store.requests[requestId];
      if action == "approve" then
        Success(Managed(Approved, Store(store.requests - {requestId}, store.gigs[gigId := ApprovedGig(request)])))
      else
        Success(Managed(Rejected, Store(
          store.requests[requestId := request + map["status" := Str("rejected"), "updatedAt" := ServerTime]],
          store.gigs)))
  }

  lemma RemoveOne<V>(m: map<string, V>, k: string)
    requires k in m
    ensures |m - {k}| == |m| - 1
  {
    assert (m - {k}).Keys == m.Keys - {k};
  }

  lemma AddOne<V>(m: map<string, V>, k: string, v: V)
    requires k !in m
    ensures |m[k := v]| == |m| + 1
  {
    assert m[k := v].Keys == m.Keys + {k};
  }

  /** Approving moves one document: the request disappears and, with a
      fresh gig id, exactly one gig appears, so the two collections hold as
      many documents as before. */
  lemma ApproveMovesOne(auth: Option<Auth.AuthData>, requestId: string, store: Store, gigId: string)
    requires gigId !in store.gigs
    requires ManageFreelanceRequest(auth, "approve", requestId, store, gigId).Success?
    ensures var after := ManageFreelanceRequest(auth, "approve", requestId, store, gigId).value.store;
      && requestId !in after.requests
      && |after.requests| == |store.requests| - 1
      && |after.gigs| == |store.gigs| + 1
  {
    RemoveOne(store.requests, requestId);
    AddOne(store.gigs, gigId, ApprovedGig(store.requests[requestId]));
  }
}

=== FILE: imports.dfy ===
/** Job rows and bulk imports (functions/src/index.ts `normalizeJobData`,
    the tag parsing of `createJobPost`, `importJobsFromExcel`,
    `importJobsFromURL` and `bulkImportContent`).

    Parsing a spreadsheet or a CSV file and fetching a URL are done by
    libraries; the model receives their results as parameters: a sheet as
    its rows of cell values, header row first, and a fetch as a
    `Response`. Every staged write goes through the batch handler. */
module Imports {
  import opened Wrappers
  import opened Js
  import opened Batching
  import Auth

  // ---------------------------------------------------------------------
  // Tags

  /** `pieces.map(t => t.trim()).filter(Boolean)`. */
  function CleanTags(pieces: seq<string>): (tags: seq<string>)
    ensures |tags| <= |pieces|
    ensures forall k :: 0 <= k < |tags| ==> tags[k] != "" && IsTrimmed(tags[k])
    decreases |pieces|
  {
    if pieces == [] then []
    else
      var t := Trim(pieces[0]);
      var rest := CleanTags(pieces[1..]);
      if t == "" then rest
      else
        assert forall k :: 0 < k <= |rest| ==> ([t] + rest)[k] == rest[k - 1];
        [t] + rest
  }

  /** A tag list as the store keeps it: no tag is empty, padded or holds a comma. */
  predicate CleanTagList(tags: seq<string>) {
    forall k :: 0 <= k < |tags| ==> tags[k] != "" && IsTrimmed(tags[k]) && ',' !in tags[k]
  }

  /** Every tag is the trim of some piece, and every piece with something
      besides spaces yields its tag. */
  lemma {:induction false} CleanTagsMembers(pieces: seq<string>)
    ensures forall t :: t in CleanTags(pieces) <==> t != "" && exists p :: p in pieces && Trim(p) == t
    decreases |pieces|
  {
    if pieces != [] {
      CleanTagsMembers(pieces[1..]);
      assert forall p :: p in pieces <==> p == pieces[0] || p in pieces[1..];
    }
  }

  /** Cleaning an already clean list changes nothing. */
  lemma {:induction false} CleanTagsOfClean(tags: seq<string>)
    requires forall k :: 0 <= k < |tags| ==> tags[k] != "" && IsTrimmed(tags[k])
    ensures CleanTags(tags) == tags
    decreases |tags|
  {
    if tags != [] {
      CleanTagsCons(tags[0], tags[1..]);
      CleanTagsOfClean(tags[1..]);
      HeadTail(tags);
    }
  }

  /** A clean first piece is kept as it is. */
  lemma CleanTagsCons(t: string, rest: seq<string>)
    requires t != "" && IsTrimmed(t)
    ensures CleanTags([t] + rest) == [t] + CleanTags(rest)
  {
    TrimOfTrimmed(t);
    assert ([t] + rest)[1..] == rest;
  }

  /** `normalizeJobData`'s tags: read from the capitalised `Tags` key only,
      converted with `String`, split on commas, trimmed, empties dropped. */
  function RowTags(row: Record): (tags: seq<string>)
    ensures forall k :: 0 <= k < |tags| ==> tags[k] != "" && IsTrimmed(tags[k])
    ensures !HasTruthy(row, "Tags") ==> tags == []
  {
    if HasTruthy(row, "Tags") then CleanTags(Split(ToText(row["Tags"]), ',')) else []
  }

  /** A comma-joined clean tag list in `Tags` is read back exactly. */
  lemma RowTagsOfJoined(row: Record, tags: seq<string>)
    requires |tags| >= 1 && CleanTagList(tags)
    requires "Tags" in row && row["Tags"] == Str(Join(tags, ','))
    ensures RowTags(row) == tags
  {
    JoinPrefix(tags, ',');
    SplitJoin(tags, ',');
    CleanTagsOfClean(tags);
  }

  /** A join starts with its first piece. */
  lemma JoinPrefix(pieces: seq<string>, sep: char)
    requires |pieces| >= 1
    ensures |Join(pieces, sep)| >= |pieces[0]|
    ensures Join(pieces, sep)[..|pieces[0]|] == pieces[0]
  {
    if |pieces| > 1 {
      assert Join(pieces, sep) == pieces[0] + ([sep] + Join(pieces[1..], sep));
    }
  }

  /** A clean array in `Tags` survives `String` and `split` unchanged. */
  lemma RowTagsOfArray(row: Record, tags: seq<string>)
    requires CleanTagList(tags)
    requires "Tags" in row && row["Tags"] == List(tags)
    ensures RowTags(row) == tags
  {
    if tags != [] {
      var text := Join(tags, ',');
      assert ToText(row["Tags"]) == text;
      SplitJoin(tags, ',');
      CleanTagsOfClean(tags);
    } else {
      assert ToText(row["Tags"]) == "";
      assert Split("", ',') == [""];
      assert CleanTags([""]) == [] + CleanTags([]);
    }
  }

  /** `createJobPost`'s tags: an array is trimmed and filtered element by
      element, a string is split on commas first, anything else gives none. */
  function PostTags(tags: Value): (r: seq<string>)
    ensures forall k :: 0 <= k < |r| ==> r[k] != "" && IsTrimmed(r[k])
    ensures !tags.List? && !tags.Str? ==> r == []
  {
    match tags
    case List(xs) => CleanTags(xs)
    case Str(s) => CleanTags(Split(s, ','))
    case _ => []
  }

  /** Parsing the tags a post stored gives the same tags again. */
  lemma PostTagsIdempotent(tags: Value)
    ensures PostTags(List(PostTags(tags))) == PostTags(tags)
  {
    CleanTagsOfClean(PostTags(tags));
  }

  /** The post parser and the row normaliser read a string of tags the same
      way, the empty string included. */
  lemma TagParsersAgreeOnStrings(s: string)
    ensures PostTags(Str(s)) == RowTags(map["Tags" := Str(s)])
  {
    if s == "" {
      assert Split(s, ',') == [""];
      assert CleanTags([""]) == [] + CleanTags([]);
    }
  }

  // ---------------------------------------------------------------------
  // Job rows

  /** A job document as the admin functions write it. Text fields keep
      whatever value the input held; `createdAt` and `updatedAt` are always
      the server timestamp and are not represented. */
  datatype JobDoc = JobDoc(
    title: Value, company: Value, location: Value, jobType: Value,
    salary: Value, description: Value, tags: seq<string>, published: bool)

  /** `normalizeJobData`: each text field from its capitalised header, else
      its lower-case one, else a default; the values are not converted. */
  function NormalizeJob(row: Record): (job: JobDoc)
    ensures HasTruthy(row, "Title") ==> job.title == row["Title"]
    ensures !HasTruthy(row, "Title") && HasTruthy(row, "title") ==> job.title == row["title"]
    ensures !HasTruthy(row, "Title") && !HasTruthy(row, "title") ==> job.title == Str("")
    ensures job.company == FirstTruthy(row, "Company", "company", Str(""))
    ensures job.location == FirstTruthy(row, "Location", "location", Str(""))
    ensures job.jobType == FirstTruthy(row, "Type", "type", Str("Remote"))
    ensures job.salary == FirstTruthy(row, "Salary", "salary", Str(""))
    ensures job.description == FirstTruthy(row, "Description", "description", Str(""))
    ensures job.tags == RowTags(row)
    ensures job.published
  {
    JobDoc(
      FirstTruthy(row, "Title", "title", Str("")),
      FirstTruthy(row, "Company", "company", Str("")),
      FirstTruthy(row, "Location", "location", Str("")),
      FirstTruthy(row, "Type", "type", Str("Remote")),
      FirstTruthy(row, "Salary", "salary", Str("")),
      FirstTruthy(row, "Description", "description", Str("")),
      RowTags(row),
      true)
  }

  /** A lower-case `tags` column is never read, and an absent or blank
      `Type` and `type` give "Remote". */
  lemma NormalizeJobQuirks(row: Record, v: Value)
    ensures NormalizeJob(row["tags" := v]).tags == NormalizeJob(row).tags
    ensures !HasTruthy(row, "Type") && !HasTruthy(row, "type") ==> NormalizeJob(row).jobType == Str("Remote")
    ensures NormalizeJob(row["published" := Bool(false)]).published
  {
    assert RowTags(row["tags" := v]) == RowTags(row) by {
      assert HasTruthy(row["tags" := v], "Tags") == HasTruthy(row, "Tags");
    }
  }

  /** The request of `createJobPost`; an absent text field is "", absent tags `Null`. */
  datatype JobPost = JobPost(
    title: string, company: string, location: string, jobType: string,
    salary: string, description: string, tags: Value)

  const JobPostFieldsRequired: string := "title and company are required"

  /** `createJobPost`: the document it writes. */
  function CreateJobPost(auth: Option<Auth.AuthData>, req: JobPost): (r: Result<JobDoc>)
    ensures r.Success? <==> Auth.IsAdmin(auth) && req.title != "" && req.company != ""
    ensures !Auth.IsAdmin(auth) ==> r == Failure(Auth.NotAdmin)
    ensures Auth.IsAdmin(auth) && (req.title == "" || req.company == "") ==> r == Failure(JobPostFieldsRequired)
    ensures r.Success? ==>
      && r.value.title == Str(Trim(req.title)) && IsTrimmed(r.value.title.s)
      && r.value.company == Str(Trim(req.company)) && IsTrimmed(r.value.company.s)
      && r.value.location == Str(Trim(req.location))
      && r.value.description == Str(Trim(req.description))
      && r.value.salary == Str(req.salary)
      && r.value.jobType == Str(if req.jobType == "" then "Remote" else req.jobType)
      && r.value.tags == PostTags(req.tags)
      && r.value.published
  {
    var guard := Auth.AssertAdmin(auth);
    if guard.Failure? then Failure(guard.error)
    else if req.title == "" || req.company == "" then Failure(JobPostFieldsRequired)
    else Success(JobDoc(
      Str(Trim(req.title)),
      Str(Trim(req.company)),
      Str(Trim(req.location)),
      Str(if req.jobType == "" then "Remote" else req.jobType),
      Str(req.salary),
      Str(Trim(req.description)),
      PostTags(req.tags),
      true))
  }

  // ---------------------------------------------------------------------
  // Sheets

  /** The record of one data row: each non-empty cell under a non-empty
      header, keyed by the header's text; a later column wins a repeated
      header. */
  function RowRecord(header: seq<Value>, cells: seq<Value>): (row: Record)
    ensures forall key :: key in row ==>
      exists c :: 0 <= c < |cells| && c < |header| && header[c] != Null && cells[c] != Null
        && ToText(header[c]) == key && row[key] == cells[c]
    decreases |cells|
  {
    if cells == [] then map[]
    else
      var c := |cells| - 1;
      var row := RowRecord(header, cells[..c]);
      if cells[c] != Null && c < |header| && header[c] != Null then row[ToText(header[c]) := cells[c]] else row
  }

  /** Some non-empty cell after column `c` has a non-empty header whose text is `key`. */
  predicate WrittenAfter(header: seq<Value>, cells: seq<Value>, c: nat, key: string)
    decreases |cells|
  {
    if |cells| <= c + 1 then false
    else
      var n := |cells| - 1;
      (n < |header| && header[n] != Null && cells[n] != Null && ToText(header[n]) == key)
      || WrittenAfter(header, cells[..n], c, key)
  }

  /** `WrittenAfter` holds exactly when some later column writes the key. */
  lemma {:induction false} WrittenAfterIff(header: seq<Value>, cells: seq<Value>, c: nat, key: string)
    ensures WrittenAfter(header, cells, c, key) <==>
      exists j :: c < j < |cells| && j < |header| && header[j] != Null && cells[j] != Null && ToText(header[j]) == key
    decreases |cells|
  {
    if |cells| > c + 1 {
      var n := |cells| - 1;
      var init := cells[..n];
      var last := n < |header| && header[n] != Null && cells[n] != Null && ToText(header[n]) == key;
      assert WrittenAfter(header, cells, c, key) == (last || WrittenAfter(header, init, c, key));
      WrittenAfterIff(header, init, c, key);
      if WrittenAfter(header, init, c, key) {
        var j :| c < j < |init| && j < |header| && header[j] != Null && init[j] != Null && ToText(header[j]) == key;
        assert cells[j] == init[j];
      }
      if exists j :: c < j < |cells| && j < |header| && header[j] != Null && cells[j] != Null && ToText(header[j]) == key {
        var j :| c < j < |cells| && j < |header| && header[j] != Null && cells[j] != Null && ToText(header[j]) == key;
        if j < n {
          assert init[j] == cells[j];
        }
      }
    }
  }

  /** A non-empty cell lands under its header's text unless a later
      non-empty cell has a header with the same text: the later column
      wins, as the cells are assigned in column order. */
  lemma {:induction false} RowRecordLastWins(header: seq<Value>, cells: seq<Value>, c: nat)
    requires c < |cells| && c < |header| && header[c] != Null && cells[c] != Null
    requires !WrittenAfter(header, cells, c, ToText(header[c]))
    ensures ToText(header[c]) in RowRecord(header, cells)
    ensures RowRecord(header, cells)[ToText(header[c])] == cells[c]
    decreases |cells|
  {
    if c < |cells| - 1 {
      RowRecordLastWins(header, cells[..|cells| - 1], c);
    }
  }

  /** Under distinct headers every non-empty cell lands under its own header. */
  lemma {:induction false} RowRecordReads(header: seq<Value>, cells: seq<Value>, c: nat)
    requires forall i, j :: 0 <= i < j < |header| ==> ToText(header[i]) != ToText(header[j])
    requires c < |cells| && c < |header| && header[c] != Null && cells[c] != Null
    ensures ToText(header[c]) in RowRecord(header, cells)
    ensures RowRecord(header, cells)[ToText(header[c])] == cells[c]
    decreases |cells|
  {
    if c < |cells| - 1 {
      RowRecordReads(header, cells[..|cells| - 1], c);
    }
  }

  /** The records of the rows after the header row. */
  function DataRows(sheet: seq<seq<Value>>): (rows: seq<Record>)
    ensures |rows| == if sheet == [] then 0 else |sheet| - 1
    ensures forall k :: 0 <= k < |rows| ==> rows[k] == RowRecord(sheet[0], sheet[k + 1])
  {
    if sheet == [] then [] else seq(|sheet| - 1, k requires 0 <= k < |sheet| - 1 => RowRecord(sheet[0], sheet[k + 1]))
  }

  // ---------------------------------------------------------------------
  // The import loop shared by the three imports

  /** The documents an import stages, in item order: the converted accepted items. */
  function Accepted<R, D>(items: seq<R>, accept: R -> bool, convert: R -> D): seq<D>
    decreases |items|
  {
    if items == [] then []
    else
      var last := items[|items| - 1];
      Accepted(items[..|items| - 1], accept, convert) + (if accept(last) then [convert(last)] else [])
  }

  /** The number of items an import skips. */
  function Rejected<R>(items: seq<R>, accept: R -> bool): nat
    decreases |items|
  {
    if items == [] then 0
    else Rejected(items[..|items| - 1], accept) + (if accept(items[|items| - 1]) then 0 else 1)
  }

  /** Every item is either staged or skipped, never both. */
  lemma {:induction false} AcceptedPlusRejected<R, D>(items: seq<R>, accept: R -> bool, convert: R -> D)
    ensures |Accepted(items, accept, convert)| + Rejected(items, accept) == |items|
    ensures (forall k :: 0 <= k < |items| ==> accept(items[k])) ==> Rejected(items, accept) == 0
    ensures (forall k :: 0 <= k < |items| ==> !accept(items[k])) ==> Accepted(items, accept, convert) == []
    decreases |items|
  {
    if items != [] {
      AcceptedPlusRejected(items[..|items| - 1], accept, convert);
    }
  }

  /** The batches an import commits and its two counters. */
  datatype LoopResult<D> = LoopResult(batches: seq<seq<D>>, imported: nat, failed: nat)

  /** The body of the imports: for each item in order, stage its document
      through the batch handler if it is acceptable and count it, or count
      it as failed and go on; then commit the open batch. */
  method ImportLoop<R, D>(items: seq<R>, accept: R -> bool, convert: R -> D) returns (res: LoopResult<D>)
    ensures res.imported + res.failed == |items|
    ensures res.imported == |Accepted(items, accept, convert)|
    ensures res.failed == Rejected(items, accept)
    ensures Flatten(res.batches) == Accepted(items, accept, convert)
    ensures forall k :: 0 <= k < |res.batches| ==> 0 < |res.batches[k]| <= MaxBatchSize
    ensures res.batches == Commit(SetAll(NewHandler(), Accepted(items, accept, convert))).flushed
  {
    var h: Handler<D> := NewHandler();
    var imported, failed := 0, 0;
    var i := 0;
    while i < |items|
      invariant 0 <= i <= |items|
      invariant h == SetAll(NewHandler(), Accepted(items[..i], accept, convert))
      invariant imported == |Accepted(items[..i], accept, convert)|
      invariant failed == Rejected(items[..i], accept)
    {
      assert items[..i + 1][..i] == items[..i];
      var done := Accepted(items[..i], accept, convert);
      if accept(items[i]) {
        assert Accepted(items[..i + 1], accept, convert) == done + [convert(items[i])];
        assert (done + [convert(items[i])])[..|done|] == done;
        h := Set(h, convert(items[i]));
        imported := imported + 1;
      } else {
        assert Accepted(items[..i + 1], accept, convert) == done + [];
        assert done + [] == done;
        failed := failed + 1;
      }
      i := i + 1;
    }
    assert items[..i] == items;
    ImportCommitted(Accepted(items, accept, convert));
    AcceptedPlusRejected(items, accept, convert);
    h := Commit(h);
    return LoopResult(h.flushed, imported, failed);
  }

  /** The batches a finished import commits hold the staged documents in
      order, one to 400 at a time. */
  lemma ImportCommitted<D>(staged: seq<D>)
    ensures var batches := Commit(SetAll(NewHandler(), staged)).flushed;
      && Flatten(batches) == staged
      && (forall k :: 0 <= k < |batches| ==> 0 < |batches[k]| <= MaxBatchSize)
  {
    SetAllShape(staged);
    CommitFlushesEverything(staged);
  }

  /** What an import answers, with the batches it committed. */
  datatype Report<D> = Report(message: string, imported: nat, failed: nat, total: nat, warning: Option<string>, batches: seq<seq<D>>)

  function FailedWarning(failed: nat): Option<string> {
    if failed > 0 then Some(NatToString(failed) + " jobs failed to import") else None
  }

  // ---------------------------------------------------------------------
  // importJobsFromExcel

  /** A request value that is neither a string nor an array. */
  type NonTextValue = v: Value | !v.Str? && !v.List? witness Null

  /** The `fileData` of the request: a base64 string, an array of bytes, or
      some other value, which is neither. */
  datatype FileData = Base64(text: string) | ByteArray(bytes: seq<int>) | OtherData(v: NonTextValue)

  const FileDataRequired: string := "fileData is required"
  const FileDataKind: string := "fileData must be a base64 string or byte array"
  const NoJobData: string := "No job data found in the file"

  /** `!fileData`: absent, the empty string or a falsy other value. */
  predicate FileMissing(fileData: Option<FileData>) {
    match fileData
    case None => true
    case Some(Base64(t)) => t == ""
    case Some(ByteArray(_)) => false
    case Some(OtherData(v)) => !Truthy(v)
  }

  predicate HasTitle(row: Record) {
    HasTruthy(row, "Title") || HasTruthy(row, "title")
  }

  /** `importJobsFromExcel`; `sheet` is the first worksheet the library
      parses out of the decoded file. */
  method ImportJobsFromExcel(auth: Option<Auth.AuthData>, fileData: Option<FileData>, sheet: seq<seq<Value>>)
    returns (r: Result<Report<JobDoc>>)
    ensures !Auth.IsAdmin(auth) ==> r == Failure(Auth.NotAdmin)
    ensures Auth.IsAdmin(auth) && FileMissing(fileData) ==> r == Failure(FileDataRequired)
    ensures Auth.IsAdmin(auth) && !FileMissing(fileData) && fileData.value.OtherData? ==> r == Failure(FileDataKind)
    ensures Auth.IsAdmin(auth) && !FileMissing(fileData) && !fileData.value.OtherData? && |sheet| <= 1 ==> r == Failure(NoJobData)
    ensures r.Success? <==> Auth.IsAdmin(auth) && !FileMissing(fileData) && !fileData.value.OtherData? && |sheet| > 1
    ensures r.Success? ==>
      var rows := DataRows(sheet);
      && r.value.total == |rows| == r.value.imported + r.value.failed
      && r.value.failed == Rejected(rows, HasTitle)
      && Flatten(r.value.batches) == Accepted(rows, HasTitle, NormalizeJob)
      && (r.value.warning.Some? <==> r.value.failed > 0)
      && (r.value.failed > 0 ==> r.value.warning == Some(NatToString(r.value.failed) + " jobs failed to import"))
      && r.value.message == "Successfully imported " + NatToString(r.value.imported) + " jobs"
  {
    var guard := Auth.AssertAdmin(auth);
    if guard.Failure? {
      return Failure(guard.error);
    }
    if FileMissing(fileData) {
      return Failure(FileDataRequired);
    }
    if fileData.value.OtherData? {
      return Failure(FileDataKind);
    }
    var jobs := DataRows(sheet);
    if |jobs| == 0 {
      return Failure(NoJobData);
    }
    var res := ImportLoop(jobs, HasTitle, NormalizeJob);
    return Success(Report(
      "Successfully imported " + NatToString(res.imported) + " jobs",
      res.imported, res.failed, res.imported + res.failed, FailedWarning(res.failed), res.batches));
  }

  /** A row without `Title` or `title` is skipped and counted as failed; it
      does not stop the rows after it. */
  lemma UntitledRowSkipped(rows: seq<Record>, row: Record, more: seq<Record>)
    requires !HasTitle(row)
    ensures Accepted(rows + [row], HasTitle, NormalizeJob) == Accepted(rows, HasTitle, NormalizeJob)
    ensures Rejected(rows + [row], HasTitle) == Rejected(rows, HasTitle) + 1
  {
    assert (rows + [row])[..|rows|] == rows;
  }

  // ---------------------------------------------------------------------
  // importJobsFromURL and bulkImportContent

  /** An element of the fetched JSON array: an object, or anything else. */
  datatype Item = ObjItem(fields: Record) | Scalar

  /** The parsed JSON body of a fetch. */
  datatype Json = JArray(items: seq<Item>) | JNotArray

  /** The outcome of `fetch`: whether the status was OK, its text, and the body. */
  datatype Response<B> = Response(ok: bool, statusText: string, body: B)

  const UrlRequired: string := "URL is required"
  const NotAnArray: string := "Expected JSON array of jobs from URL"

  /** An item is imported when it has a truthy `title` and `company`. */
  predicate UrlJobAccepted(item: Item) {
    item.ObjItem? && HasTruthy(item.fields, "title") && HasTruthy(item.fields, "company")
  }

  /** `{...job, published: true, createdAt, updatedAt}`. */
  function UrlJob(item: Item): (doc: Record)
    ensures item.ObjItem? ==> forall k :: k in item.fields && k !in {"published", "createdAt", "updatedAt"} ==> k in doc && doc[k] == item.fields[k]
    ensures "published" in doc && doc["published"] == Bool(true)
    ensures "createdAt" in doc && doc["createdAt"] == ServerTime
    ensures "updatedAt" in doc && doc["updatedAt"] == ServerTime
    ensures doc.Keys == (if item.ObjItem? then item.fields.Keys else {}) + {"published", "createdAt", "updatedAt"}
  {
    var fields := if item.ObjItem? then item.fields else map[];
    fields + map["published" := Bool(true), "createdAt" := ServerTime, "updatedAt" := ServerTime]
  }

  /** `importJobsFromURL`. */
  method ImportJobsFromURL(auth: Option<Auth.AuthData>, url: string, response: Response<Json>) returns (r: Result<Report<Record>>)
    ensures !Auth.IsAdmin(auth) ==> r == Failure(Auth.NotAdmin)
    ensures Auth.IsAdmin(auth) && url == "" ==> r == Failure(UrlRequired)
    ensures Auth.IsAdmin(auth) && url != "" && !response.ok ==> r == Failure("Failed to fetch jobs from URL: " + response.statusText)
    ensures Auth.IsAdmin(auth) && url != "" && response.ok && response.body.JNotArray? ==> r == Failure(NotAnArray)
    ensures r.Success? <==> Auth.IsAdmin(auth) && url != "" && response.ok && response.body.JArray?
    ensures r.Success? ==>
      var items := response.body.items;
      && r.value.total == |items| == r.value.imported + r.value.failed
      && r.value.failed == Rejected(items, UrlJobAccepted)
      && Flatten(r.value.batches) == Accepted(items, UrlJobAccepted, UrlJob)
      && (r.value.warning.Some? <==> r.value.failed > 0)
      && (r.value.failed > 0 ==> r.value.warning == Some(NatToString(r.value.failed) + " jobs failed to import"))
      && r.value.message == "Successfully imported " + NatToString(r.value.imported) + " jobs from URL"
  {
    var guard := Auth.AssertAdmin(auth);
    if guard.Failure? {
      return Failure(guard.error);
    }
    if url == "" {
      return Failure(UrlRequired);
    }
    if !response.ok {
      return Failure("Failed to fetch jobs from URL: " + response.statusText);
    }
    if response.body.JNotArray? {
      return Failure(NotAnArray);
    }
    var res := ImportLoop(response.body.items, UrlJobAccepted, UrlJob);
    return Success(Report(
      "Successfully imported " + NatToString(res.imported) + " jobs from URL",
      res.imported, res.failed, res.imported + res.failed, FailedWarning(res.failed), res.batches));
  }

  /** The URL import needs both `title` and `company`; the spreadsheet import
      needs only a title. */
  lemma UrlNeedsCompany(title: string)
    requires title != ""
    ensures !UrlJobAccepted(ObjItem(map["title" := Str(title)]))
    ensures HasTitle(map["title" := Str(title)])
  {
  }

  const BulkFieldsRequired: string := "collectionName and fileUrl are required"

  /** `{...item, createdAt, updatedAt}`. */
  function Stamped(item: Record): (doc: Record)
    ensures forall k :: k in item && k != "createdAt" && k != "updatedAt" ==> k in doc && doc[k] == item[k]
    ensures doc.Keys == item.Keys + {"createdAt", "updatedAt"}
    ensures doc["createdAt"] == ServerTime && doc["updatedAt"] == ServerTime
  {
    item + map["createdAt" := ServerTime, "updatedAt" := ServerTime]
  }

  predicate Always(item: Record) {
    true
  }

  /** What `bulkImportContent` answers, with the batches it committed. */
  datatype BulkReport = BulkReport(message: string, count: nat, collection: string, batches: seq<seq<Record>>)

  /** `bulkImportContent`: every row of the fetched CSV becomes a document of
      the named collection; no row is rejected and the name is not checked. */
  method BulkImportContent(auth: Option<Auth.AuthData>, collectionName: string, fileUrl: string, response: Response<seq<seq<Value>>>)
    returns (r: Result<BulkReport>)
    ensures !Auth.IsAdmin(auth) ==> r == Failure(Auth.NotAdmin)
    ensures Auth.IsAdmin(auth) && (collectionName == "" || fileUrl == "") ==> r == Failure(BulkFieldsRequired)
    ensures Auth.IsAdmin(auth) && collectionName != "" && fileUrl != "" && !response.ok ==>
      r == Failure("Failed to fetch file from URL: " + response.statusText)
    ensures r.Success? <==> Auth.IsAdmin(auth) && collectionName != "" && fileUrl != "" && response.ok
    ensures r.Success? ==>
      var rows := DataRows(response.body);
      && r.value.count == |rows|
      && r.value.collection == collectionName
      && |Flatten(r.value.batches)| == |rows|
      && (forall k :: 0 <= k < |rows| ==> Flatten(r.value.batches)[k] == Stamped(rows[k]))
      && r.value.message == "Successfully imported " + NatToString(|rows|) + " items to " + collectionName
  {
    var guard := Auth.AssertAdmin(auth);
    if guard.Failure? {
      return Failure(guard.error);
    }
    if collectionName == "" || fileUrl == "" {
      return Failure(BulkFieldsRequired);
    }
    if !response.ok {
      return Failure("Failed to fetch file from URL: " + response.statusText);
    }
    var report := ImportRows(collectionName, DataRows(response.body));
    return Success(report);
  }

  /** The loop of `bulkImportContent` over the parsed rows: each row is
      stamped and staged, in order, and counted. */
  method ImportRows(collectionName: string, rows: seq<Record>) returns (report: BulkReport)
    ensures report.count == |rows|
    ensures report.collection == collectionName
    ensures |Flatten(report.batches)| == |rows|
    ensures forall k :: 0 <= k < |rows| ==> Flatten(report.batches)[k] == Stamped(rows[k])
    ensures report.message == "Successfully imported " + NatToString(|rows|) + " items to " + collectionName
  {
    var res := ImportLoop(rows, Always, Stamped);
    AcceptAll(rows);
    assert res.imported == |rows|;
    report := BulkReport(
      "Successfully imported " + NatToString(res.imported) + " items to " + collectionName,
      res.imported, collectionName, res.batches);
  }

  /** With nothing rejected, the staged documents are the converted items, one for one. */
  lemma {:induction false} AcceptAll(rows: seq<Record>)
    ensures |Accepted(rows, Always, Stamped)| == |rows|
    ensures forall k :: 0 <= k < |rows| ==> Accepted(rows, Always, Stamped)[k] == Stamped(rows[k])
  {
    AcceptEvery(rows, Always, Stamped);
  }

  lemma {:induction false} AcceptEvery<R, D>(items: seq<R>, accept: R -> bool, convert: R -> D)
    requires forall k :: 0 <= k < |items| ==> accept(items[k])
    ensures |Accepted(items, accept, convert)| == |items|
    ensures forall k :: 0 <= k < |items| ==> Accepted(items, accept, convert)[k] == convert(items[k])
    decreases |items|
  {
    if items != [] {
      var init := items[..|items| - 1];
      AcceptEvery(init, accept, convert);
      assert accept(items[|items| - 1]);
      assert Accepted(items, accept, convert) == Accepted(init, accept, convert) + [convert(items[|items| - 1])];
    }
  }
}

=== FILE: js.dfy ===
/** The slice of JavaScript value semantics the admin functions rely on:
    truthiness, `||` defaulting, `String(x)`, `trim`, `split` and
    `substring`. Strings are sequences of code points. */
module Js {
  import opened Wrappers

  /** A field value of a plain object, a spreadsheet cell or a JSON item.
      `Date` is a date object, carrying the text its `toString` gives (which
      depends on the runtime's time zone, so it is data here); `Obj` is any
      other non-null object (a rich-text or formula cell, a nested map);
      `ServerTime` is the store's server-timestamp sentinel; `List` is an
      array of strings. Numbers are integers: fractional values are not
      modelled. */
  datatype Value = Str(s: string) | Num(n: int) | Bool(b: bool) | Null | Date(text: string) | Obj | ServerTime | List(items: seq<string>)

  /** A plain object; a key that is absent reads as `undefined`. */
  type Record = map<string, Value>

  predicate Truthy(v: Value) {
    match v
    case Str(s) => s != ""
    case Num(n) => n != 0
    case Bool(b) => b
    case Null => false
    case Date(_) => true
    case Obj => true
    case ServerTime => true
    case List(_) => true
  }

  /** `obj[key]` used as a condition: `undefined` is falsy. */
  predicate HasTruthy(r: Record, key: string) {
    key in r && Truthy(r[key])
  }

  /** `obj[a] || obj[b] || dflt`. */
  function FirstTruthy(r: Record, a: string, b: string, dflt: Value): (v: Value)
    ensures HasTruthy(r, a) ==> v == r[a]
    ensures !HasTruthy(r, a) && HasTruthy(r, b) ==> v == r[b]
    ensures !HasTruthy(r, a) && !HasTruthy(r, b) ==> v == dflt
  {
    if HasTruthy(r, a) then r[a] else if HasTruthy(r, b) then r[b] else dflt
  }

  // ---------------------------------------------------------------------
  // Decimal rendering, as `String(n)` and template literals print integers

  function DigitChar(d: nat): char
    requires d < 10
  {
    "0123456789"[d]
  }

  predicate IsDigit(c: char) {
    '0' <= c <= '9'
  }

  function DigitValue(c: char): nat
    requires IsDigit(c)
  {
    (c as int) - ('0' as int)
  }

  function NatToString(n: nat): (r: string)
    ensures |r| >= 1
    ensures forall k :: 0 <= k < |r| ==> IsDigit(r[k])
    ensures |r| > 1 ==> r[0] != '0'
    decreases n
  {
    if n < 10 then [DigitChar(n)] else NatToString(n / 10) + [DigitChar(n % 10)]
  }

  /** The inverse of `NatToString`: reads a string of digits. */
  function ParseNat(s: string): nat
    requires forall k :: 0 <= k < |s| ==> IsDigit(s[k])
  {
    if s == [] then 0 else 10 * ParseNat(s[..|s| - 1]) + DigitValue(s[|s| - 1])
  }

  lemma {:induction false} ParseNatToString(n: nat)
    ensures ParseNat(NatToString(n)) == n
    decreases n
  {
    var r := NatToString(n);
    if n < 10 {
      assert r[..|r| - 1] == [];
    } else {
      assert r[..|r| - 1] == NatToString(n / 10);
      ParseNatToString(n / 10);
    }
  }

  function IntToString(n: int): (r: string)
    ensures n < 0 <==> (|r| > 0 && r[0] == '-')
  {
    if n < 0 then "-" + NatToString(-n) else NatToString(n)
  }

  /** `String(v)`; a date prints as its text, any other object as
      `[object Object]`, an array as its elements joined by commas. */
  function ToText(v: Value): string {
    match v
    case Str(s) => s
    case Num(n) => IntToString(n)
    case Bool(b) => if b then "true" else "false"
    case Null => "null"
    case Date(t) => t
    case Obj => "[object Object]"
    case ServerTime => "[object Object]"
    case List(xs) => if xs == [] then "" else Join(xs, ',')
  }

  // ---------------------------------------------------------------------
  // String.prototype.trim

  /** WhiteSpace and LineTerminator code points, which `trim` removes. */
  predicate IsSpace(c: char) {
    || c == '\t' || c == '\n' || c == '\U{000B}' || c == '\U{000C}' || c == '\r'
    || c == ' ' || c == '\U{00A0}' || c == '\U{1680}'
    || ('\U{2000}' <= c <= '\U{200A}')
    || c == '\U{2028}' || c == '\U{2029}' || c == '\U{202F}' || c == '\U{205F}'
    || c == '\U{3000}' || c == '\U{FEFF}'
  }

  predicate AllSpace(s: string) {
    forall k :: 0 <= k < |s| ==> IsSpace(s[k])
  }

  function TrimStart(s: string): (r: string)
    ensures |r| <= |s| && r == s[|s| - |r|..]
    ensures AllSpace(s[..|s| - |r|])
    ensures r == [] || !IsSpace(r[0])
    decreases |s|
  {
    if s == [] || !IsSpace(s[0]) then s
    else
      var r := TrimStart(s[1..]);
      assert s[..|s| - |r|] == [s[0]] + s[1..][..|s| - 1 - |r|];
      r
  }

  function TrimEnd(s: string): (r: string)
    ensures |r| <= |s| && r == s[..|r|]
    ensures AllSpace(s[|r|..])
    ensures r == [] || !IsSpace(r[|r| - 1])
    decreases |s|
  {
    if s == [] || !IsSpace(s[|s| - 1]) then s
    else
      var r := TrimEnd(s[..|s| - 1]);
      assert s[|r|..] == s[..|s| - 1][|r|..] + [s[|s| - 1]];
      r
  }

  /** Trimmed: neither end is a space. */
  predicate IsTrimmed(s: string) {
    s == [] || (!IsSpace(s[0]) && !IsSpace(s[|s| - 1]))
  }

  /** `s.trim()`: drop the spaces at both ends. */
  function Trim(s: string): (r: string)
    ensures |r| <= |s|
    ensures IsTrimmed(r)
  {
    TrimEnd(TrimStart(s))
  }

  /** The trim is the infix of `s` left by dropping only spaces from both ends. */
  lemma TrimInfix(s: string)
    ensures exists i, j :: 0 <= i <= j <= |s| && Trim(s) == s[i..j] && AllSpace(s[..i]) && AllSpace(s[j..])
  {
    var a := TrimStart(s);
    var r := TrimEnd(a);
    var i, j := |s| - |a|, |s| - |a| + |r|;
    assert r == s[i..j];
    assert s[j..] == a[|r|..];
    assert AllSpace(s[..i]) && AllSpace(s[j..]);
  }

  /** `s.trim() === ''` exactly when every character of `s` is a space. */
  lemma TrimEmptyIffAllSpace(s: string)
    ensures Trim(s) == [] <==> AllSpace(s)
  {
    var a := TrimStart(s);
    if Trim(s) == [] {
      assert a[0..] == a;
      assert a == [];
      assert s[..|s|] == s;
    }
  }

  lemma TrimOfTrimmed(s: string)
    requires IsTrimmed(s)
    ensures Trim(s) == s
  {
  }

  /** Trimming twice is trimming once. */
  lemma TrimIdempotent(s: string)
    ensures Trim(Trim(s)) == Trim(s)
  {
    TrimOfTrimmed(Trim(s));
  }

  lemma {:induction false} TrimStartOfSpaces(a: string, rest: string)
    requires AllSpace(a)
    requires rest == [] || !IsSpace(rest[0])
    ensures TrimStart(a + rest) == rest
    decreases |a|
  {
    if a != [] {
      assert (a + rest)[1..] == a[1..] + rest;
      TrimStartOfSpaces(a[1..], rest);
    }
  }

  lemma {:induction false} TrimEndOfSpaces(rest: string, b: string)
    requires AllSpace(b)
    requires rest == [] || !IsSpace(rest[|rest| - 1])
    ensures TrimEnd(rest + b) == rest
    decreases |b|
  {
    if b != [] {
      assert (rest + b)[..|rest + b| - 1] == rest + b[..|b| - 1];
      TrimEndOfSpaces(rest, b[..|b| - 1]);
    }
  }

  /** Whatever spaces surround a trimmed string, `trim` gives exactly that
      string back. */
  lemma TrimPadded(a: string, m: string, b: string)
    requires AllSpace(a) && AllSpace(b) && IsTrimmed(m)
    ensures Trim(a + m + b) == m
  {
    if m == [] {
      assert a + m + b == a + b;
      TrimEmptyIffAllSpace(a + b);
    } else {
      assert a + m + b == a + (m + b);
      TrimStartOfSpaces(a, m + b);
      TrimEndOfSpaces(m, b);
    }
  }

  // ---------------------------------------------------------------------
  // String.prototype.split with a one-character separator, and its inverse

  /** Position of the first `sep` in `s`. */
  function IndexOf(s: string, sep: char): (i: nat)
    requires sep in s
    ensures i < |s| && s[i] == sep && sep !in s[..i]
  {
    if s[0] == sep then 0 else 1 + IndexOf(s[1..], sep)
  }

  /** `s.split(sep)`: the pieces between separators, empty ones included;
      `"".split(sep)` is `[""]`. */
  function Split(s: string, sep: char): (r: seq<string>)
    ensures |r| >= 1
    ensures forall k :: 0 <= k < |r| ==> sep !in r[k]
    decreases |s|
  {
    if sep !in s then [s]
    else
      var i := IndexOf(s, sep);
      [s[..i]] + Split(s[i + 1..], sep)
  }

  /** `pieces.join(sep)`. */
  function Join(pieces: seq<string>, sep: char): string
    requires |pieces| >= 1
  {
    if |pieces| == 1 then pieces[0] else pieces[0] + [sep] + Join(pieces[1..], sep)
  }

  /** Joining the pieces of a split gives the string back. */
  lemma {:induction false} JoinSplit(s: string, sep: char)
    ensures Join(Split(s, sep), sep) == s
    decreases |s|
  {
    if sep in s {
      var i := IndexOf(s, sep);
      var ps := Split(s[i + 1..], sep);
      assert Split(s, sep) == [s[..i]] + ps;
      assert ([s[..i]] + ps)[1..] == ps;
      assert Join(Split(s, sep), sep) == s[..i] + [sep] + Join(ps, sep);
      JoinSplit(s[i + 1..], sep);
      assert s == s[..i] + [sep] + s[i + 1..];
    }
  }

  /** The first separator of `a + [sep] + b` is the one after `a`, when `a` has none. */
  lemma {:induction false} IndexOfAfter(a: string, sep: char, b: string)
    requires sep !in a
    ensures IndexOf(a + [sep] + b, sep) == |a|
    decreases |a|
  {
    if a != [] {
      assert (a + [sep] + b)[1..] == a[1..] + [sep] + b;
      IndexOfAfter(a[1..], sep, b);
    }
  }

  /** Splitting a join of separator-free pieces gives the pieces back. */
  lemma {:induction false} SplitJoin(pieces: seq<string>, sep: char)
    requires |pieces| >= 1
    requires forall k :: 0 <= k < |pieces| ==> sep !in pieces[k]
    ensures Split(Join(pieces, sep), sep) == pieces
    decreases |pieces|
  {
    if |pieces| > 1 {
      var s := Join(pieces, sep);
      var rest := Join(pieces[1..], sep);
      assert s == pieces[0] + [sep] + rest;
      IndexOfAfter(pieces[0], sep, rest);
      var i := IndexOf(s, sep);
      assert s[|pieces[0]|] == sep;
      assert s[..i] == pieces[0];
      assert s[i + 1..] == rest;
      SplitJoin(pieces[1..], sep);
      assert Split(s, sep) == [pieces[0]] + pieces[1..];
      HeadTail(pieces);
    }
  }

  // ---------------------------------------------------------------------
  // String.prototype.substring(0, n)

  /** `s.substring(0, n)`: the first `n` characters, or all of a shorter `s`. */
  function Prefix(s: string, n: nat): (r: string)
    ensures |r| == Min(n, |s|)
    ensures r <= s
  {
    if |s| <= n then s else s[..n]
  }
}

=== FILE: liststore.dfy ===
/** The in-memory record lists behind the job, course and gig services
    (services/jobService.ts, services/learningService.ts,
    services/freelanceServices.ts). Each service keeps a list of plain
    objects with an `id` and offers create (append), update (merge into the
    first record with the id) and delete (remove the first record with the
    id). The three differ only in the fields a new record is forced to
    have and in the noun of their "not found" error, so this module is
    written once and instantiated three times. */
module ListStore {
  import opened Wrappers
  import opened Js

  /** The list after an operation, and what the operation returned or threw.
      A thrown error leaves the list as it was. */
  datatype Step<T> = Step(items: seq<Record>, out: Result<T>)

  /** `record.id === id`. */
  predicate HasId(r: Record, id: string) {
    "id" in r && r["id"] == Str(id)
  }

  /** `findIndex(record => record.id === id)`, with `None` for -1. */
  function FindIndex(items: seq<Record>, id: string): (k: Option<nat>)
    ensures k.Some? ==> k.value < |items| && HasId(items[k.value], id)
    ensures k.Some? ==> forall j :: 0 <= j < k.value ==> !HasId(items[j], id)
    ensures k.None? <==> forall j :: 0 <= j < |items| ==> !HasId(items[j], id)
    decreases |items|
  {
    if items == [] then None
    else if HasId(items[0], id) then Some(0)
    else match FindIndex(items[1..], id)
      case None => None
      case Some(j) => Some(j + 1)
  }

  /** `{ id: freshId, ...data, ...forced }`: the input may override the id,
      and the forced fields override the input. */
  function NewRecord(freshId: string, data: Record, forced: Record): (r: Record)
    ensures r.Keys == {"id"} + data.Keys + forced.Keys
    ensures forall k :: k in forced ==> r[k] == forced[k]
    ensures forall k :: k in data && k !in forced ==> r[k] == data[k]
    ensures "id" !in data && "id" !in forced ==> HasId(r, freshId)
  {
    map["id" := Str(freshId)] + data + forced
  }

  /** `create`: append the new record and return it. */
  function Create(items: seq<Record>, freshId: string, data: Record, forced: Record): (s: Step<Record>)
    ensures |s.items| == |items| + 1
    ensures s.items[..|items|] == items
    ensures s.out.Success? && s.items[|items|] == s.out.value
    ensures s.out.value == NewRecord(freshId, data, forced)
  {
    var r := NewRecord(freshId, data, forced);
    Step(items + [r], Success(r))
  }

  /** `update`: merge `data` into the first record with the id and return
      the merged record, or throw `notFound`. */
  function Update(items: seq<Record>, id: string, data: Record, notFound: string): (s: Step<Record>)
    ensures |s.items| == |items|
    ensures s.out.Failure? <==> FindIndex(items, id).None?
    ensures s.out.Failure? ==> s.out.error == notFound && s.items == items
    ensures s.out.Success? ==>
      var k := FindIndex(items, id).value;
      && s.items[k] == s.out.value
      && s.out.value.Keys == items[k].Keys + data.Keys
      && (forall key :: key in data ==> key in s.out.value && s.out.value[key] == data[key])
      && (forall key :: key in items[k] && key !in data ==> key in s.out.value && s.out.value[key] == items[k][key])
      && (forall j :: 0 <= j < |items| && j != k ==> s.items[j] == items[j])
  {
    match FindIndex(items, id)
    case None => Step(items, Failure(notFound))
    case Some(k) =>
      var merged := items[k] + data;
      Step(items[k := merged], Success(merged))
  }

  /** `delete`: remove the first record with the id and return true, or
      throw `notFound`. */
  function Delete(items: seq<Record>, id: string, notFound: string): (s: Step<bool>)
    ensures s.out.Failure? <==> FindIndex(items, id).None?
    ensures s.out.Failure? ==> s.out.error == notFound && s.items == items
    ensures s.out.Success? ==>
      var k := FindIndex(items, id).value;
      && s.out.value
      && |s.items| == |items| - 1
      && s.items[..k] == items[..k]
      && s.items[k..] == items[k + 1..]
  {
    match FindIndex(items, id)
    case None => Step(items, Failure(notFound))
    case Some(k) => Step(items[..k] + items[k + 1..], Success(true))
  }

  /** Deleting takes out exactly one record, the first with the id, and
      keeps every other record. */
  lemma DeleteKeepsOthers(items: seq<Record>, id: string, notFound: string)
    requires FindIndex(items, id).Some?
    ensures multiset(Delete(items, id, notFound).items) + multiset{items[FindIndex(items, id).value]} == multiset(items)
  {
    Splice(items, FindIndex(items, id).value);
  }

  lemma Splice<T>(s: seq<T>, k: nat)
    requires k < |s|
    ensures multiset(s[..k] + s[k + 1..]) + multiset{s[k]} == multiset(s)
  {
    assert s == s[..k] + [s[k]] + s[k + 1..];
  }

  /** Creating a record with a new id and then deleting that id gives the
      list back. */
  lemma CreateThenDelete(items: seq<Record>, freshId: string, data: Record, forced: Record, notFound: string)
    requires FindIndex(items, freshId).None?
    requires "id" !in data && "id" !in forced
    ensures var s := Create(items, freshId, data, forced);
      Delete(s.items, freshId, notFound) == Step(items, Success(true))
  {
    var s := Create(items, freshId, data, forced);
    FindIndexAppend(items, freshId, s.out.value);
  }

  /** The first match in `items + [r]` is the last element when `items`
      holds none. */
  lemma {:induction false} FindIndexAppend(items: seq<Record>, id: string, r: Record)
    requires FindIndex(items, id).None?
    requires HasId(r, id)
    ensures FindIndex(items + [r], id) == Some(|items|)
    decreases |items|
  {
    if items != [] {
      assert (items + [r])[1..] == items[1..] + [r];
      FindIndexAppend(items[1..], id, r);
    }
  }

  /** An update that does not touch `id` keeps every record findable where it was. */
  lemma UpdateKeepsIds(items: seq<Record>, id: string, data: Record, notFound: string, other: string)
    requires "id" !in data
    ensures FindIndex(Update(items, id, data, notFound).items, other) == FindIndex(items, other)
  {
    var s := Update(items, id, data, notFound);
    if s.out.Success? {
      var k := FindIndex(items, id).value;
      assert forall j :: 0 <= j < |items| ==> (HasId(s.items[j], other) <==> HasId(items[j], other));
      FindIndexSameIds(items, s.items, other);
    }
  }

  /** Two lists whose records carry the same ids at the same places answer
      every lookup alike. */
  lemma {:induction false} FindIndexSameIds(a: seq<Record>, b: seq<Record>, id: string)
    requires |a| == |b|
    requires forall j :: 0 <= j < |a| ==> (HasId(a[j], id) <==> HasId(b[j], id))
    ensures FindIndex(a, id) == FindIndex(b, id)
    decreases |a|
  {
    if a != [] {
      FindIndexSameIds(a[1..], b[1..], id);
    }
  }

  /** Updating twice with the same fields is updating once. */
  lemma UpdateIdempotent(items: seq<Record>, id: string, data: Record, notFound: string)
    requires "id" !in data
    ensures var once := Update(items, id, data, notFound);
      Update(once.items, id, data, notFound) == once
  {
    var once := Update(items, id, data, notFound);
    UpdateKeepsIds(items, id, data, notFound, id);
    if once.out.Success? {
      var k := FindIndex(items, id).value;
      var merged := items[k] + data;
      assert merged + data == merged;
      assert once.items[k := merged + data] == once.items;
    }
  }
}

/** services/jobService.ts: a created job is always published. */
module Jobs {
  import opened Wrappers
  import opened Js
  import ListStore

  const JobNotFound: string := "Job not found"

  function CreateJob(items: seq<Record>, freshId: string, jobData: Record): (s: ListStore.Step<Record>)
    ensures |s.items| == |items| + 1 && s.items[..|items|] == items
    ensures s.out.Success? && s.items[|items|] == s.out.value
    ensures "published" in s.out.value && s.out.value["published"] == Bool(true)
    ensures "id" !in jobData ==> ListStore.HasId(s.out.value, freshId)
  {
    ListStore.Create(items, freshId, jobData, map["published" := Bool(true)])
  }

  function UpdateJob(items: seq<Record>, id: string, jobData: Record): (s: ListStore.Step<Record>)
    ensures |s.items| == |items|
    ensures s.out.Failure? <==> ListStore.FindIndex(items, id).None?
    ensures s.out.Failure? ==> s.out.error == JobNotFound && s.items == items
  {
    ListStore.Update(items, id, jobData, JobNotFound)
  }

  function DeleteJob(items: seq<Record>, id: string): (s: ListStore.Step<bool>)
    ensures s.out.Failure? <==> ListStore.FindIndex(items, id).None?
    ensures s.out.Failure? ==> s.out.error == JobNotFound && s.items == items
    ensures s.out.Success? ==> s.out.value && |s.items| == |items| - 1
  {
    ListStore.Delete(items, id, JobNotFound)
  }
}

/** services/learningService.ts: a created course is always published and unrated. */
module Courses {
  import opened Wrappers
  import opened Js
  import ListStore

  const CourseNotFound: string := "Course not found"

  function CreateCourse(items: seq<Record>, freshId: string, courseData: Record): (s: ListStore.Step<Record>)
    ensures |s.items| == |items| + 1 && s.items[..|items|] == items
    ensures s.out.Success? && s.items[|items|] == s.out.value
    ensures "rating" in s.out.value && s.out.value["rating"] == Num(0)
    ensures "published" in s.out.value && s.out.value["published"] == Bool(true)
    ensures "id" !in courseData ==> ListStore.HasId(s.out.value, freshId)
  {
    ListStore.Create(items, freshId, courseData, map["rating" := Num(0), "published" := Bool(true)])
  }

  function UpdateCourse(items: seq<Record>, id: string, courseData: Record): (s: ListStore.Step<Record>)
    ensures |s.items| == |items|
    ensures s.out.Failure? <==> ListStore.FindIndex(items, id).None?
    ensures s.out.Failure? ==> s.out.error == CourseNotFound && s.items == items
  {
    ListStore.Update(items, id, courseData, CourseNotFound)
  }

  function DeleteCourse(items: seq<Record>, id: string): (s: ListStore.Step<bool>)
    ensures s.out.Failure? <==> ListStore.FindIndex(items, id).None?
    ensures s.out.Failure? ==> s.out.error == CourseNotFound && s.items == items
    ensures s.out.Success? ==> s.out.value && |s.items| == |items| - 1
  {
    ListStore.Delete(items, id, CourseNotFound)
  }
}

/** services/freelanceServices.ts: a created gig is always published and unrated. */
module Gigs {
  import opened Wrappers
  import opened Js
  import ListStore

  const GigNotFound: string := "Gig not found"

  function CreateGig(items: seq<Record>, freshId: string, gigData: Record): (s: ListStore.Step<Record>)
    ensures |s.items| == |items| + 1 && s.items[..|items|] == items
    ensures s.out.Success? && s.items[|items|] == s.out.value
    ensures "rating" in s.out.value && s.out.value["rating"] == Num(0)
    ensures "published" in s.out.value && s.out.value["published"] == Bool(true)
    ensures "id" !in gigData ==> ListStore.HasId(s.out.value, freshId)
  {
    ListStore.Create(items, freshId, gigData, map["rating" := Num(0), "published" := Bool(true)])
  }

  function UpdateGig(items: seq<Record>, id: string, gigData: Record): (s: ListStore.Step<Record>)
    ensures |s.items| == |items|
    ensures s.out.Failure? <==> ListStore.FindIndex(items, id).None?
    ensures s.out.Failure? ==> s.out.error == GigNotFound && s.items == items
  {
    ListStore.Update(items, id, gigData, GigNotFound)
  }

  function DeleteGig(items: seq<Record>, id: string): (s: ListStore.Step<bool>)
    ensures s.out.Failure? <==> ListStore.FindIndex(items, id).None?
    ensures s.out.Failure? ==> s.out.error == GigNotFound && s.items == items
    ensures s.out.Success? ==> s.out.value && |s.items| == |items| - 1
  {
    ListStore.Delete(items, id, GigNotFound)
  }
}

=== FILE: pages.dfy ===
/** CMS pages with version history (functions/src/index.ts `createEditPage`,
    `deletePage`, `getPagePreview`). The store holds the `pages` collection,
    keyed by slug, and each page's `history` sub-collection, keyed by the
    archived version number. A save or a delete stages its writes into one
    batch, which the store commits all-or-nothing. */
module Pages {
  import opened Wrappers
  import opened Js
  import Auth

  /** A server-assigned time; the model never looks inside it. */
  datatype Timestamp = Timestamp(tick: nat)

  /** The page's SEO metadata, opaque to this code. */
  type Meta = map<string, string>

  datatype Page = Page(
    slug: string,
    title: string,
    content: string,
    excerpt: string,
    meta: Meta,
    published: bool,
    featuredImage: Option<string>,
    authorId: string,
    updatedAt: Timestamp,
    version: nat)

  /** What a page looked like at `version`, archived when it was overwritten. */
  datatype HistoryEntry = HistoryEntry(content: string, updatedAt: Timestamp, changedBy: string, version: nat)

  /** `pages/{slug}` and `pages/{slug}/history/{version}`. */
  datatype Cms = Cms(pages: map<string, Page>, history: map<(string, nat), HistoryEntry>)

  /** The request of `createEditPage`. An absent `slug` or `title` is
      represented by the empty string, which the guard treats the same way. */
  datatype PageRequest = PageRequest(
    slug: string,
    title: string,
    content: Option<string>,
    meta: Option<Meta>,
    published: Option<bool>,
    featuredImage: Option<string>)

  /** One staged batch operation. */
  datatype Write =
    | PutHistory(slug: string, version: nat, entry: HistoryEntry)
    | PutPage(page: Page)
    | DeleteHistory(slug: string, versions: set<nat>)
    | DeletePage(slug: string)

  const ExcerptLength: nat := 150
  const PreviewLength: nat := 500
  const HistoryDeleteLimit: nat := 50

  const SlugAndTitleRequired: string := "Slug and Title are required"
  const SlugRequired: string := "slug is required"
  const PageNotFound: string := "Page not found"
  const ContentRequired: string := "content is required"

  function ApplyWrite(cms: Cms, w: Write): Cms {
    match w
    case PutHistory(slug, v, e) => cms.(history := cms.history[(slug, v) := e])
    case PutPage(p) => cms.(pages := cms.pages[p.slug := p])
    case DeleteHistory(slug, vs) => cms.(history := cms.history - set v | v in vs :: (slug, v))
    case DeletePage(slug) => cms.(pages := cms.pages - {slug})
  }

  /** `batch.commit()`: every staged write takes effect, in staging order, at once. */
  function CommitBatch(cms: Cms, batch: seq<Write>): Cms {
    if batch == [] then cms else ApplyWrite(CommitBatch(cms, batch[..|batch| - 1]), batch[|batch| - 1])
  }

  /** The archived versions of `slug` present in the store. */
  function HistoryVersions(history: map<(string, nat), HistoryEntry>, slug: string): set<nat> {
    set k | k in history && k.0 == slug :: k.1
  }

  lemma HistoryVersionsMember(history: map<(string, nat), HistoryEntry>, slug: string, v: nat)
    ensures v in HistoryVersions(history, slug) <==> (slug, v) in history
  {
    if (slug, v) in history {
      assert (slug, v).1 == v;
    }
  }

  /** Archiving one more version of `slug` adds exactly that version. */
  lemma HistoryVersionsPut(history: map<(string, nat), HistoryEntry>, slug: string, v: nat, e: HistoryEntry)
    ensures HistoryVersions(history[(slug, v) := e], slug) == HistoryVersions(history, slug) + {v}
  {
    forall w
      ensures w in HistoryVersions(history[(slug, v) := e], slug) <==> w in HistoryVersions(history, slug) + {v}
    {
      HistoryVersionsMember(history[(slug, v) := e], slug, w);
      HistoryVersionsMember(history, slug, w);
    }
  }

  /** A consistent store holds no history for a slug without a page. */
  lemma NoHistoryWithoutPage(cms: Cms, slug: string)
    requires Consistent(cms) && slug !in cms.pages
    ensures HistoryVersions(cms.history, slug) == {}
  {
    forall v
      ensures v !in HistoryVersions(cms.history, slug)
    {
      HistoryVersionsMember(cms.history, slug, v);
    }
  }

  /** The stored excerpt: the first 150 characters of the content followed by
      "...", which is appended even when nothing was cut. */
  function Excerpt(content: string): (r: string)
    ensures |r| == Min(|content|, ExcerptLength) + 3
    ensures r[..|r| - 3] <= content
    ensures r[|r| - 3..] == "..."
  {
    Prefix(content, ExcerptLength) + "..."
  }

  lemma ShortContentExcerpt(content: string)
    requires |content| <= ExcerptLength
    ensures Excerpt(content) == content + "..."
  {
  }

  /** `(currentData.version || 1) + 1`: a stored version 0 counts as 1. */
  function NextVersion(current: nat): (v: nat)
    ensures current >= 1 ==> v == current + 1
    ensures current == 0 ==> v == 2
    ensures v >= 2
  {
    (if current == 0 then 1 else current) + 1
  }

  /** The page document a save writes. */
  function SavedPage(req: PageRequest, author: string, now: Timestamp, version: nat): Page
  {
    var content := req.content.GetOr("");
    Page(
      req.slug,
      Trim(req.title),
      content,
      Excerpt(content),
      req.meta.GetOr(map[]),
      req.published.GetOr(false),
      if req.featuredImage.Some? && req.featuredImage.value != "" then req.featuredImage else None,
      author,
      now,
      version)
  }

  /** The saved page: the title trimmed, the excerpt cut from the content,
      and the defaults for absent fields: empty content and meta, not
      published, no featured image. An empty featured image is dropped as
      well. */
  lemma SavedPageFields(req: PageRequest, author: string, now: Timestamp, version: nat)
    ensures var p := SavedPage(req, author, now, version);
      && p.slug == req.slug && p.version == version && p.updatedAt == now && p.authorId == author
      && p.title == Trim(req.title) && IsTrimmed(p.title)
      && |p.excerpt| == Min(|p.content|, ExcerptLength) + 3
      && p.excerpt[..|p.excerpt| - 3] <= p.content && p.excerpt[|p.excerpt| - 3..] == "..."
      && (req.content.None? ==> p.content == "" && p.excerpt == "...")
      && (req.meta.None? ==> p.meta == map[])
      && (req.published.None? ==> !p.published)
      && (req.featuredImage.None? || req.featuredImage == Some("") ==> p.featuredImage.None?)
  {
  }

  /** The saved page keeps each field the request supplies as given: the
      content, the meta map, the published flag and a non-empty featured
      image. */
  lemma SavedPageGivenFields(req: PageRequest, author: string, now: Timestamp, version: nat)
    ensures var p := SavedPage(req, author, now, version);
      && (req.content.Some? ==> p.content == req.content.value)
      && (req.meta.Some? ==> p.meta == req.meta.value)
      && (req.published.Some? ==> p.published == req.published.value)
      && (req.featuredImage.Some? && req.featuredImage.value != "" ==> p.featuredImage == req.featuredImage)
  {
  }

  /** The history entry archiving `p` as it stands. */
  function Snapshot(p: Page): HistoryEntry {
    HistoryEntry(p.content, p.updatedAt, p.authorId, p.version)
  }

  datatype SaveOutcome = SaveOutcome(batch: seq<Write>, store: Cms, version: nat)

  /** `createEditPage`: create the page for a new slug at version 1, or archive
      the current page under its version and overwrite it with the next
      version, both writes in one batch. `now` is the server time the commit
      assigns. */
  function CreateEditPage(auth: Option<Auth.AuthData>, req: PageRequest, cms: Cms, now: Timestamp): (r: Result<SaveOutcome>)
    ensures !Auth.IsAdmin(auth) ==> r == Failure(Auth.NotAdmin)
    ensures Auth.IsAdmin(auth) && (req.slug == "" || req.title == "") ==> r == Failure(SlugAndTitleRequired)
    ensures r.Success? <==> Auth.IsAdmin(auth) && req.slug != "" && req.title != ""
    ensures r.Success? ==> r.value.store == CommitBatch(cms, r.value.batch)
    ensures r.Success? && req.slug !in cms.pages ==> r.value.version == 1 && |r.value.batch| == 1
    ensures r.Success? && req.slug in cms.pages ==>
      && r.value.version == NextVersion(cms.pages[req.slug].version)
      && |r.value.batch| == 2
      && r.value.batch[0].PutHistory?
      && r.value.batch[0].version == cms.pages[req.slug].version
  {
    match Auth.AssertAdmin(auth)
    case Failure(e) => Failure(e)
    case Success(uid) =>
      if req.slug == "" || req.title == "" then Failure(SlugAndTitleRequired)
      else if req.slug in cms.pages then
        var prior := cms.pages[req.slug];
        var version := NextVersion(prior.version);
        var batch := [PutHistory(req.slug, prior.version, Snapshot(prior)), PutPage(SavedPage(req, uid, now, version))];
        Success(SaveOutcome(batch, CommitBatch(cms, batch), version))
      else
        var batch := [PutPage(SavedPage(req, uid, now, 1))];
        Success(SaveOutcome(batch, CommitBatch(cms, batch), 1))
  }

  lemma CommitSingle(cms: Cms, a: Write)
    ensures CommitBatch(cms, [a]) == ApplyWrite(cms, a)
  {
    assert [a][..0] == [];
  }

  lemma CommitPair(cms: Cms, a: Write, b: Write)
    ensures CommitBatch(cms, [a, b]) == ApplyWrite(ApplyWrite(cms, a), b)
  {
    assert [a][..0] == [];
    assert CommitBatch(cms, [a]) == ApplyWrite(cms, a);
    assert [a, b][..1] == [a];
  }

  /** What a successful save leaves in the store: the page under its slug
      holds the request's fields at the new version; when a page existed, its
      history gains one entry under the prior version holding the prior
      content, update time, author (as `changedBy`) and version; nothing else
      changes. */
  lemma SaveEffect(auth: Option<Auth.AuthData>, req: PageRequest, cms: Cms, now: Timestamp)
    requires CreateEditPage(auth, req, cms, now).Success?
    ensures var out := CreateEditPage(auth, req, cms, now).value;
      && out.store.pages == cms.pages[req.slug := SavedPage(req, auth.value.uid, now, out.version)]
      && (req.slug !in cms.pages ==> out.store.history == cms.history)
      && (req.slug in cms.pages ==>
            var prior := cms.pages[req.slug];
            out.store.history == cms.history[(req.slug, prior.version) :=
              HistoryEntry(prior.content, prior.updatedAt, prior.authorId, prior.version)])
  {
    var out := CreateEditPage(auth, req, cms, now).value;
    var page := SavedPage(req, auth.value.uid, now, out.version);
    if req.slug in cms.pages {
      var prior := cms.pages[req.slug];
      var entry := Snapshot(prior);
      assert out.batch == [PutHistory(req.slug, prior.version, entry), PutPage(page)];
      CommitPair(cms, out.batch[0], out.batch[1]);
      var mid := ApplyWrite(cms, out.batch[0]);
      assert mid.history == cms.history[(req.slug, prior.version) := entry];
      assert mid.pages == cms.pages;
      assert out.store.pages == cms.pages[req.slug := page];
    } else {
      assert out.batch == [PutPage(page)];
      CommitSingle(cms, PutPage(page));
      assert out.store.pages == cms.pages[req.slug := page];
    }
  }

  /** The store as saves and deletes keep it: each page is stored under its
      own slug at a version of at least 1, and its history holds exactly the
      versions 1 .. version-1, each recording that version. */
  ghost predicate Consistent(cms: Cms) {
    && (forall s :: s in cms.pages ==> cms.pages[s].slug == s && cms.pages[s].version >= 1)
    && (forall k :: k in cms.history ==>
          k.0 in cms.pages && 1 <= k.1 < cms.pages[k.0].version && cms.history[k].version == k.1)
    && (forall s, v :: s in cms.pages && 1 <= v < cms.pages[s].version ==> (s, v) in cms.history)
  }

  /** Adding a page at version 1 under a fresh slug keeps the store consistent. */
  lemma AddPageConsistent(cms: Cms, page: Page)
    requires Consistent(cms)
    requires page.slug !in cms.pages && page.version == 1
    ensures Consistent(cms.(pages := cms.pages[page.slug := page]))
  {
  }

  /** Archiving the current page under its version and replacing it with the
      next version keeps the store consistent. */
  lemma BumpPageConsistent(cms: Cms, page: Page)
    requires Consistent(cms)
    requires page.slug in cms.pages && page.version == cms.pages[page.slug].version + 1
    ensures var prior := cms.pages[page.slug];
      Consistent(Cms(cms.pages[page.slug := page], cms.history[(page.slug, prior.version) := Snapshot(prior)]))
  {
    var prior := cms.pages[page.slug];
    var next := Cms(cms.pages[page.slug := page], cms.history[(page.slug, prior.version) := Snapshot(prior)]);
    forall s, v | s in next.pages && 1 <= v < next.pages[s].version
      ensures (s, v) in next.history
    {
      assert s != page.slug || v < prior.version ==> (s, v) in cms.history;
    }
  }

  lemma SavePreservesConsistent(auth: Option<Auth.AuthData>, req: PageRequest, cms: Cms, now: Timestamp)
    requires Consistent(cms)
    requires CreateEditPage(auth, req, cms, now).Success?
    ensures Consistent(CreateEditPage(auth, req, cms, now).value.store)
  {
    var out := CreateEditPage(auth, req, cms, now).value;
    SaveEffect(auth, req, cms, now);
    var page := SavedPage(req, auth.value.uid, now, out.version);
    if req.slug in cms.pages {
      BumpPageConsistent(cms, page);
      assert out.store == Cms(cms.pages[page.slug := page], cms.history[(page.slug, cms.pages[page.slug].version) := Snapshot(cms.pages[page.slug])]);
    } else {
      AddPageConsistent(cms, page);
      assert out.store == cms.(pages := cms.pages[page.slug := page]);
    }
  }

  /** One save of `slug` with `content`, or no change when the call fails. */
  function SaveContent(auth: Option<Auth.AuthData>, slug: string, title: string, content: string, cms: Cms, now: Timestamp): Cms
  {
    var r := CreateEditPage(auth, PageRequest(slug, title, Some(content), None, None, None), cms, now);
    if r.Success? then r.value.store else cms
  }

  /** `n` saves of the same slug, differing only in their content. */
  function SaveAll(auth: Option<Auth.AuthData>, slug: string, title: string, contents: seq<string>, cms: Cms, now: Timestamp): Cms
  {
    if contents == [] then cms
    else SaveAll(auth, slug, title, contents[1..], SaveContent(auth, slug, title, contents[0], cms, now), now)
  }

  /** The effect of one successful save on the saved slug, in the terms of
      the history it keeps. */
  lemma SaveContentStep(auth: Option<Auth.AuthData>, slug: string, title: string, content: string, cms: Cms, now: Timestamp)
    requires Auth.IsAdmin(auth) && slug != "" && title != ""
    ensures var after := SaveContent(auth, slug, title, content, cms, now);
      && slug in after.pages
      && after.pages[slug].content == content
      && (slug !in cms.pages ==> after.pages[slug].version == 1 && after.history == cms.history)
      && (slug in cms.pages ==>
            var prior := cms.pages[slug];
            && after.pages[slug].version == NextVersion(prior.version)
            && HistoryVersions(after.history, slug) == HistoryVersions(cms.history, slug) + {prior.version}
            && after.history[(slug, prior.version)].content == prior.content
            && (forall v :: (slug, v) in cms.history && v != prior.version ==> (slug, v) in after.history && after.history[(slug, v)] == cms.history[(slug, v)]))
  {
    var req := PageRequest(slug, title, Some(content), None, None, None);
    SaveEffect(auth, req, cms, now);
    if slug in cms.pages {
      var prior := cms.pages[slug];
      HistoryVersionsPut(cms.history, slug, prior.version, Snapshot(prior));
    }
  }

  /** A history that records `prefix` and archives its last version
      (under the number `|prefix|`) with nothing else changed records
      `prefix + [content]` for the next save. */
  lemma ArchiveExtends(hb: map<(string, nat), HistoryEntry>, ha: map<(string, nat), HistoryEntry>, slug: string, prefix: seq<string>, content: string)
    requires |prefix| >= 1
    requires forall v :: v in HistoryVersions(hb, slug) <==> 1 <= v < |prefix|
    requires forall v :: 1 <= v < |prefix| ==> (slug, v) in hb && hb[(slug, v)].content == prefix[v - 1]
    requires HistoryVersions(ha, slug) == HistoryVersions(hb, slug) + {|prefix|}
    requires (slug, |prefix|) in ha && ha[(slug, |prefix|)].content == prefix[|prefix| - 1]
    requires forall v :: (slug, v) in hb && v != |prefix| ==> (slug, v) in ha && ha[(slug, v)] == hb[(slug, v)]
    ensures forall v :: v in HistoryVersions(ha, slug) <==> 1 <= v < |prefix| + 1
    ensures forall v :: 1 <= v < |prefix| + 1 ==> (slug, v) in ha && ha[(slug, v)].content == (prefix + [content])[v - 1]
  {
    forall v | 1 <= v < |prefix| + 1
      ensures (slug, v) in ha && ha[(slug, v)].content == (prefix + [content])[v - 1]
    {
      if v < |prefix| {
        assert (slug, v) in hb;
      }
    }
  }

  /** Saves `contents` are recorded in `cms` for `slug`: the page holds
      the last one at version `|contents|`, and version k of the history
      the k-th. */
  ghost predicate Recorded(cms: Cms, slug: string, contents: seq<string>) {
    && |contents| >= 1
    && slug in cms.pages
    && cms.pages[slug].version == |contents|
    && cms.pages[slug].content == contents[|contents| - 1]
    && (forall v :: v in HistoryVersions(cms.history, slug) <==> 1 <= v < |contents|)
    && (forall v :: 1 <= v < |contents| ==> (slug, v) in cms.history && cms.history[(slug, v)].content == contents[v - 1])
  }

  /** One more save of a slug whose history records the saves `prefix`
      extends that record by the save's content. */
  lemma SaveGrowsHistory(auth: Option<Auth.AuthData>, slug: string, title: string, content: string, before: Cms, now: Timestamp, prefix: seq<string>)
    requires Auth.IsAdmin(auth) && slug != "" && title != ""
    requires |prefix| >= 1 && Recorded(before, slug, prefix)
    ensures Recorded(SaveContent(auth, slug, title, content, before, now), slug, prefix + [content])
  {
    var after := SaveContent(auth, slug, title, content, before, now);
    SaveContentStep(auth, slug, title, content, before, now);
    ArchiveExtends(before.history, after.history, slug, prefix, content);
  }

  /** The first save of a slug with no page and no history records it. */
  lemma FirstSave(auth: Option<Auth.AuthData>, slug: string, title: string, content: string, cms: Cms, now: Timestamp)
    requires slug !in cms.pages && HistoryVersions(cms.history, slug) == {}
    requires Auth.IsAdmin(auth) && slug != "" && title != ""
    ensures Recorded(SaveContent(auth, slug, title, content, cms, now), slug, [content])
  {
    SaveContentStep(auth, slug, title, content, cms, now);
  }

  /** After N successful saves of a slug that had neither a page nor
      left-over history, the page is at version N and its history holds
      versions 1 .. N-1, version k recording the content of the k-th save. */
  lemma RepeatedSaves(auth: Option<Auth.AuthData>, slug: string, title: string, contents: seq<string>, cms: Cms, now: Timestamp)
    requires slug !in cms.pages && HistoryVersions(cms.history, slug) == {}
    requires Auth.IsAdmin(auth) && slug != "" && title != ""
    requires |contents| >= 1
    ensures var after := SaveAll(auth, slug, title, contents, cms, now);
      && slug in after.pages
      && after.pages[slug].version == |contents|
      && after.pages[slug].content == contents[|contents| - 1]
      && (forall v :: v in HistoryVersions(after.history, slug) <==> 1 <= v < |contents|)
      && (forall v :: 1 <= v < |contents| ==> (slug, v) in after.history && after.history[(slug, v)].content == contents[v - 1])
  {
    RepeatedSavesRecorded(auth, slug, title, contents, cms, now);
  }

  lemma AppendHead<T>(prefix: seq<T>, rest: seq<T>)
    requires rest != []
    ensures (prefix + [rest[0]]) + rest[1..] == prefix + rest
  {
  }

  /** Saves that continue a recorded run extend the record. */
  lemma {:induction false} SavesExtend(auth: Option<Auth.AuthData>, slug: string, title: string, prefix: seq<string>, rest: seq<string>, cms: Cms, now: Timestamp)
    requires Auth.IsAdmin(auth) && slug != "" && title != ""
    requires Recorded(cms, slug, prefix)
    ensures Recorded(SaveAll(auth, slug, title, rest, cms, now), slug, prefix + rest)
    decreases |rest|
  {
    if rest == [] {
      assert prefix + rest == prefix;
    } else {
      SaveGrowsHistory(auth, slug, title, rest[0], cms, now, prefix);
      SavesExtend(auth, slug, title, prefix + [rest[0]], rest[1..], SaveContent(auth, slug, title, rest[0], cms, now), now);
      AppendHead(prefix, rest);
    }
  }

  lemma RepeatedSavesRecorded(auth: Option<Auth.AuthData>, slug: string, title: string, contents: seq<string>, cms: Cms, now: Timestamp)
    requires slug !in cms.pages && HistoryVersions(cms.history, slug) == {}
    requires Auth.IsAdmin(auth) && slug != "" && title != ""
    requires |contents| >= 1
    ensures Recorded(SaveAll(auth, slug, title, contents, cms, now), slug, contents)
  {
    FirstSave(auth, slug, title, contents[0], cms, now);
    SavesExtend(auth, slug, title, [contents[0]], contents[1..], SaveContent(auth, slug, title, contents[0], cms, now), now);
    assert [contents[0]] + contents[1..] == contents;
  }

  datatype DeleteOutcome = DeleteOutcome(batch: seq<Write>, store: Cms)

  /** `deletePage`: delete the page and the history entries that one query
      limited to 50 returns, in one batch. `fetched` is that query's answer:
      some 50 of the page's archived versions, or all of them when there are
      fewer. Any further entries are left behind. */
  function DeletePageOp(auth: Option<Auth.AuthData>, slug: string, cms: Cms, fetched: set<nat>): (r: Result<DeleteOutcome>)
    requires fetched <= HistoryVersions(cms.history, slug)
    requires |fetched| == Min(|HistoryVersions(cms.history, slug)|, HistoryDeleteLimit)
    ensures !Auth.IsAdmin(auth) ==> r == Failure(Auth.NotAdmin)
    ensures Auth.IsAdmin(auth) && slug == "" ==> r == Failure(SlugRequired)
    ensures Auth.IsAdmin(auth) && slug != "" && slug !in cms.pages ==> r == Failure(PageNotFound)
    ensures r.Success? <==> Auth.IsAdmin(auth) && slug != "" && slug in cms.pages
    ensures r.Success? ==> r.value.store == CommitBatch(cms, r.value.batch) && |r.value.batch| == 2
  {
    match Auth.AssertAdmin(auth)
    case Failure(e) => Failure(e)
    case Success(_) =>
      if slug == "" then Failure(SlugRequired)
      else if slug !in cms.pages then Failure(PageNotFound)
      else
        var batch := [DeleteHistory(slug, fetched), DeletePage(slug)];
        Success(DeleteOutcome(batch, CommitBatch(cms, batch)))
  }

  /** What a successful delete leaves in the store: no page under the slug,
      the fetched history entries gone, and everything else as it was. */
  lemma DeleteEffect(auth: Option<Auth.AuthData>, slug: string, cms: Cms, fetched: set<nat>)
    requires fetched <= HistoryVersions(cms.history, slug)
    requires |fetched| == Min(|HistoryVersions(cms.history, slug)|, HistoryDeleteLimit)
    requires DeletePageOp(auth, slug, cms, fetched).Success?
    ensures var store := DeletePageOp(auth, slug, cms, fetched).value.store;
      && store.pages == cms.pages - {slug}
      && store.history.Keys <= cms.history.Keys
      && HistoryVersions(store.history, slug) == HistoryVersions(cms.history, slug) - fetched
      && |HistoryVersions(store.history, slug)| == |HistoryVersions(cms.history, slug)| - |fetched|
      && (forall k :: k in cms.history && k.0 != slug ==> k in store.history && store.history[k] == cms.history[k])
      && (forall v :: (slug, v) in cms.history && v !in fetched ==> (slug, v) in store.history && store.history[(slug, v)] == cms.history[(slug, v)])
  {
    var out := DeletePageOp(auth, slug, cms, fetched).value;
    CommitPair(cms, out.batch[0], out.batch[1]);
    var h := HistoryVersions(cms.history, slug);
    forall v
      ensures v in HistoryVersions(out.store.history, slug) <==> v in h - fetched
    {
      HistoryVersionsMember(out.store.history, slug, v);
      HistoryVersionsMember(cms.history, slug, v);
    }
    assert h == (h - fetched) + fetched;
  }

  /** A page with at most 50 archived versions is deleted completely, and the
      store stays consistent. */
  lemma DeleteSmallHistory(auth: Option<Auth.AuthData>, slug: string, cms: Cms, fetched: set<nat>)
    requires Consistent(cms)
    requires fetched <= HistoryVersions(cms.history, slug)
    requires |fetched| == Min(|HistoryVersions(cms.history, slug)|, HistoryDeleteLimit)
    requires |HistoryVersions(cms.history, slug)| <= HistoryDeleteLimit
    requires DeletePageOp(auth, slug, cms, fetched).Success?
    ensures HistoryVersions(DeletePageOp(auth, slug, cms, fetched).value.store.history, slug) == {}
    ensures Consistent(DeletePageOp(auth, slug, cms, fetched).value.store)
  {
    DeleteEffect(auth, slug, cms, fetched);
    var store := DeletePageOp(auth, slug, cms, fetched).value.store;
    forall k | k in store.history
      ensures k.0 != slug
    {
      assert k.0 == slug ==> k.1 in HistoryVersions(store.history, slug);
    }
  }

  /** A page with more than 50 archived versions loses its document and
      exactly 50 of them; the rest stay in the store with no page. */
  lemma DeleteLargeHistory(auth: Option<Auth.AuthData>, slug: string, cms: Cms, fetched: set<nat>)
    requires fetched <= HistoryVersions(cms.history, slug)
    requires |fetched| == Min(|HistoryVersions(cms.history, slug)|, HistoryDeleteLimit)
    requires |HistoryVersions(cms.history, slug)| > HistoryDeleteLimit
    requires DeletePageOp(auth, slug, cms, fetched).Success?
    ensures var store := DeletePageOp(auth, slug, cms, fetched).value.store;
      && slug !in store.pages
      && |HistoryVersions(store.history, slug)| == |HistoryVersions(cms.history, slug)| - HistoryDeleteLimit
  {
    DeleteEffect(auth, slug, cms, fetched);
  }

  datatype Preview = Preview(html: string, totalLength: nat)

  /** `getPagePreview`: the first 500 characters of the content, with "..."
      appended only when something was cut, and the full length. */
  function GetPagePreview(auth: Option<Auth.AuthData>, content: string): (r: Result<Preview>)
    ensures !Auth.IsAdmin(auth) ==> r == Failure(Auth.NotAdmin)
    ensures Auth.IsAdmin(auth) && content == "" ==> r == Failure(ContentRequired)
    ensures r.Success? <==> Auth.IsAdmin(auth) && content != ""
    ensures r.Success? ==>
      && r.value.totalLength == |content|
      && |r.value.html| <= PreviewLength + 3
      && content[..Min(|content|, PreviewLength)] <= r.value.html
      && (|content| <= PreviewLength ==> r.value.html == content)
      && (|content| > PreviewLength ==> |r.value.html| == PreviewLength + 3 && r.value.html[PreviewLength..] == "...")
  {
    match Auth.AssertAdmin(auth)
    case Failure(e) => Failure(e)
    case Success(_) =>
      if content == "" then Failure(ContentRequired)
      else Success(Preview(Prefix(content, PreviewLength) + (if |content| > PreviewLength then "..." else ""), |content|))
  }
}

=== FILE: validators.dfy ===
/** The input checks run before the AI features are called
    (services/geminiService.ts `validateStudyAbroadInput` and
    `validateResumeAnalysisInput`). Each returns the list of problems
    found, in a fixed order; an empty list means the input is accepted. */
module Validators {
  import opened Js

  const GpaRequired: string := "GPA is required"
  const CountryRequired: string := "Country is required"
  const DegreeRequired: string := "Degree program is required"

  const ResumeTooShort: string := "Resume text must be at least 50 characters"
  const JobTooShort: string := "Job description must be at least 20 characters"

  const MinResumeLength: nat := 50
  const MinJobLength: nat := 20

  /** The study-abroad form: field name to text; an absent field is `undefined`. */
  type Form = map<string, string>

  /** `!input[key] || input[key].trim() === ''`. */
  predicate Blank(input: Form, key: string) {
    key !in input || input[key] == "" || Trim(input[key]) == ""
  }

  function Count(b: bool): nat {
    if b then 1 else 0
  }

  /** `validateStudyAbroadInput`: one error per blank field, GPA first,
      then country, then degree. */
  function ValidateStudyAbroad(input: Form): (errors: seq<string>)
    ensures |errors| == Count(Blank(input, "gpa")) + Count(Blank(input, "country")) + Count(Blank(input, "degree"))
    ensures Blank(input, "gpa") ==> errors[0] == GpaRequired
    ensures Blank(input, "country") ==> errors[Count(Blank(input, "gpa"))] == CountryRequired
    ensures Blank(input, "degree") ==> errors[|errors| - 1] == DegreeRequired
  {
    var gpa, country, degree := Blank(input, "gpa"), Blank(input, "country"), Blank(input, "degree");
    ThreeInOrder(GpaRequired, CountryRequired, DegreeRequired, gpa, country, degree);
    (if gpa then [GpaRequired] else []) + (if country then [CountryRequired] else []) + (if degree then [DegreeRequired] else [])
  }

  /** Where each of up to three messages, each chosen by its own condition,
      lands in the list. */
  lemma ThreeInOrder<T>(a: T, b: T, c: T, pa: bool, pb: bool, pc: bool)
    ensures var xs := (if pa then [a] else []) + (if pb then [b] else []) + (if pc then [c] else []);
      && |xs| == Count(pa) + Count(pb) + Count(pc)
      && (pa ==> xs[0] == a)
      && (pb ==> xs[Count(pa)] == b)
      && (pc ==> xs[|xs| - 1] == c)
  {
  }

  /** Blank means absent or nothing but spaces. */
  lemma BlankIff(input: Form, key: string)
    ensures Blank(input, key) <==> key !in input || AllSpace(input[key])
  {
    if key in input {
      TrimEmptyIffAllSpace(input[key]);
    }
  }

  /** In a list of up to three distinct messages, each chosen by its own
      condition, a message is present exactly when its condition holds. */
  lemma PickThree<T>(a: T, b: T, c: T, pa: bool, pb: bool, pc: bool)
    requires a != b && b != c && a != c
    ensures var xs := (if pa then [a] else []) + (if pb then [b] else []) + (if pc then [c] else []);
      && (a in xs <==> pa) && (b in xs <==> pb) && (c in xs <==> pc)
  {
  }

  lemma StudyMessagesDiffer()
    ensures GpaRequired != CountryRequired && CountryRequired != DegreeRequired && GpaRequired != DegreeRequired
  {
    assert |GpaRequired| == 15 && |CountryRequired| == 19 && |DegreeRequired| == 26;
  }

  /** A field is reported exactly when it is absent or holds nothing but
      spaces, and the form is accepted exactly when none is. */
  lemma StudyAbroadErrors(input: Form)
    ensures GpaRequired in ValidateStudyAbroad(input) <==> "gpa" !in input || AllSpace(input["gpa"])
    ensures CountryRequired in ValidateStudyAbroad(input) <==> "country" !in input || AllSpace(input["country"])
    ensures DegreeRequired in ValidateStudyAbroad(input) <==> "degree" !in input || AllSpace(input["degree"])
    ensures ValidateStudyAbroad(input) == [] <==>
      && "gpa" in input && !AllSpace(input["gpa"])
      && "country" in input && !AllSpace(input["country"])
      && "degree" in input && !AllSpace(input["degree"])
  {
    BlankIff(input, "gpa");
    BlankIff(input, "country");
    BlankIff(input, "degree");
    StudyMessagesDiffer();
    PickThree(GpaRequired, CountryRequired, DegreeRequired,
      Blank(input, "gpa"), Blank(input, "country"), Blank(input, "degree"));
  }

  /** Fields other than `gpa`, `country` and `degree` (an English test
      score, say) never change the verdict. */
  lemma StudyAbroadIgnoresOtherFields(input: Form, key: string, value: string)
    requires key != "gpa" && key != "country" && key != "degree"
    ensures ValidateStudyAbroad(input[key := value]) == ValidateStudyAbroad(input)
  {
  }

  /** Trimming one field leaves every field exactly as blank as before. */
  lemma BlankAfterTrim(input: Form, key: string, k: string)
    requires key in input
    ensures Blank(input[key := Trim(input[key])], k) == Blank(input, k)
  {
    if k == key {
      TrimIdempotent(input[key]);
    } else {
      assert (k in input[key := Trim(input[key])]) == (k in input);
    }
  }

  /** Trimming a field before validation changes nothing. */
  lemma StudyAbroadTrimmedField(input: Form, key: string)
    requires key in input
    ensures ValidateStudyAbroad(input[key := Trim(input[key])]) == ValidateStudyAbroad(input)
  {
    BlankAfterTrim(input, key, "gpa");
    BlankAfterTrim(input, key, "country");
    BlankAfterTrim(input, key, "degree");
  }

  /** The resume is too short: under 50 characters once trimmed. */
  predicate ResumeShort(resumeText: string) {
    |Trim(resumeText)| < MinResumeLength
  }

  /** The job description is too short: under 20 characters once trimmed. */
  predicate JobShort(jobDescription: string) {
    |Trim(jobDescription)| < MinJobLength
  }

  /** `validateResumeAnalysisInput`; an absent text is the empty string. */
  function ValidateResumeAnalysis(resumeText: string, jobDescription: string): (errors: seq<string>)
    ensures |errors| == (if ResumeShort(resumeText) then 1 else 0) + (if JobShort(jobDescription) then 1 else 0)
    ensures ResumeShort(resumeText) ==> errors[0] == ResumeTooShort
    ensures JobShort(jobDescription) ==> errors[|errors| - 1] == JobTooShort
  {
    (if resumeText == "" || |Trim(resumeText)| < MinResumeLength then [ResumeTooShort] else [])
    + (if jobDescription == "" || |Trim(jobDescription)| < MinJobLength then [JobTooShort] else [])
  }

  /** The checks depend on the texts only through whether each is too short. */
  lemma ResumeAnalysisByShortness(resumeText: string, jobDescription: string)
    ensures ValidateResumeAnalysis(resumeText, jobDescription)
      == (if ResumeShort(resumeText) then [ResumeTooShort] else []) + (if JobShort(jobDescription) then [JobTooShort] else [])
  {
    assert |Trim("")| == 0;
    assert (resumeText == "" || |Trim(resumeText)| < MinResumeLength) == ResumeShort(resumeText);
    assert (jobDescription == "" || |Trim(jobDescription)| < MinJobLength) == JobShort(jobDescription);
  }

  lemma SameShortnessSameVerdict(resume1: string, job1: string, resume2: string, job2: string)
    requires ResumeShort(resume1) == ResumeShort(resume2) && JobShort(job1) == JobShort(job2)
    ensures ValidateResumeAnalysis(resume1, job1) == ValidateResumeAnalysis(resume2, job2)
  {
    ResumeAnalysisByShortness(resume1, job1);
    ResumeAnalysisByShortness(resume2, job2);
  }

  /** In a list of up to two distinct messages, each chosen by its own
      condition, a message is present exactly when its condition holds. */
  lemma PickTwo<T>(a: T, b: T, pa: bool, pb: bool)
    requires a != b
    ensures var xs := (if pa then [a] else []) + (if pb then [b] else []);
      && (a in xs <==> pa) && (b in xs <==> pb) && (xs == [] <==> !pa && !pb)
  {
  }

  lemma ResumeMessagesDiffer()
    ensures ResumeTooShort != JobTooShort
  {
    assert |ResumeTooShort| == 42 && |JobTooShort| == 46;
  }

  /** Each message is reported exactly when its text is too short, and the
      input is accepted exactly when neither is. */
  lemma ResumeAnalysisErrors(resumeText: string, jobDescription: string)
    ensures ResumeTooShort in ValidateResumeAnalysis(resumeText, jobDescription) <==> ResumeShort(resumeText)
    ensures JobTooShort in ValidateResumeAnalysis(resumeText, jobDescription) <==> JobShort(jobDescription)
    ensures ValidateResumeAnalysis(resumeText, jobDescription) == [] <==> !ResumeShort(resumeText) && !JobShort(jobDescription)
  {
    ResumeMessagesDiffer();
    ResumeAnalysisByShortness(resumeText, jobDescription);
    PickTwo(ResumeTooShort, JobTooShort, ResumeShort(resumeText), JobShort(jobDescription));
  }

  /** Only the text between the outer spaces counts: validating the trimmed
      texts gives the same verdict as validating the texts themselves. */
  lemma ResumeAnalysisOfTrimmed(resumeText: string, jobDescription: string)
    ensures ValidateResumeAnalysis(Trim(resumeText), Trim(jobDescription)) == ValidateResumeAnalysis(resumeText, jobDescription)
  {
    TrimIdempotent(resumeText);
    TrimIdempotent(jobDescription);
    SameShortnessSameVerdict(Trim(resumeText), Trim(jobDescription), resumeText, jobDescription);
  }
}

=== FILE: wrappers.dfy ===
/** Optional values and success/error results, used in place of JavaScript's
    `undefined` and thrown `Error`s. */
module Wrappers {

  datatype Option<+T> = None | Some(value: T) {
    function GetOr(default: T): T {
      match this
      case Some(v) => v
      case None => default
    }
  }

  /** A call that either returns a value or throws an `Error` whose message is `error`. */
  datatype Result<+T> = Success(value: T) | Failure(error: string)

  function Min(a: int, b: int): int {
    if a <= b then a else b
  }

  /** A non-empty sequence is its head followed by its tail. */
  lemma HeadTail<T>(s: seq<T>)
    requires s != []
    ensures [s[0]] + s[1..] == s
  {
  }

  /** Concatenation of a sequence of batches. */
  function Flatten<T>(xss: seq<seq<T>>): (r: seq<T>)
  {
    if xss == [] then [] else Flatten(xss[..|xss| - 1]) + xss[|xss| - 1]
  }

  lemma {:induction false} FlattenAppend<T>(xss: seq<seq<T>>, yss: seq<seq<T>>)
    ensures Flatten(xss + yss) == Flatten(xss) + Flatten(yss)
    decreases |yss|
  {
    if yss == [] {
      assert xss + yss == xss;
    } else {
      var last := yss[|yss| - 1];
      assert (xss + yss)[..|xss + yss| - 1] == xss + yss[..|yss| - 1];
      FlattenAppend(xss, yss[..|yss| - 1]);
    }
  }
}
